=== FILE: README.md ===
# A social feed app: posts, follows and sessions, in Dafny

This project models the core of a small social app. It has two halves:

- **The server.** A GraphQL server stores users, posts and follow records in three collections. It keeps the post feed in a key/value cache, with a lifetime the model takes as a parameter (possibly none), and it guards every resolver except `register` and `login` with a bearer-token check.
- **The mobile client.** Its screens validate and normalise what the user types before any mutation is sent. They also keep local state that should agree with the server: the session, the list of subscribed users, and like highlights.

Everything is pure functions over immutable datatypes:

- Collections are sequences in insertion order.
- The cache is a map from key to entry with an optional expiry instant on an abstract clock.
- Client state is a record.
- Request handlers return the request they would send, or the warning they would show.

Effects the model cannot see are parameters:

- the outcome of `auth()`;
- the password hash and compare functions;
- token signing and verification;
- the clock;
- the ids the database assigns;
- the server's answer to a client request.

Each module follows one source area:

| module | models |
|---|---|
| `Common` | JavaScript string helpers: `trim` over the JavaScript white-space set, `.length` in UTF-16 code units, `toLowerCase`, `split`/`join`, `filter`, the default string sort order |
| `Cache` | the key/value cache: get with lazy expiry, set with a time-to-live, delete |
| `Follows`, `Users`, `Posts` | the three collections and their model classes |
| `PostSchema`, `FollowSchema`, `UserSchema` | the resolvers |
| `AuthHeader` | the `auth()` closure built per request |
| `TimeAgo` | the relative-time label copied into three screens |
| `Client`, `Alerts`, `Home`, `AddPost`, `Search`, `Profile`, `PostDetail`, `RegisterScreen`, `LoginScreen`, `Session` | the client screens, the alert component and the authentication context |

The central results:

- **The cached feed is never stale.** Take any sequence of post requests, with any auth outcomes, clock values and lifetimes, starting from an empty cache. `allposts` then answers exactly the feed the database yields, up to how dates are encoded (`PostSchema.FeedNeverStale`). The supporting facts:
  - every mutation drops a cache entry only after its store write;
  - the only key ever written is the feed key.
- **The subscribed list stays in step with the server.** When a user's subscribe/unsubscribe request is served, the client's list keeps naming exactly the users that user follows on the server (`Search.ToggleKeepsMirror`). Loading `getUserFollows` establishes the same property (`Search.LoadedFollowsMirror`).
- **A client login produces a header the server accepts.** The header built after login parses back to the same token on the server (`LoginScreen.LoginHeaderAuthenticates`). Signing out leaves that token in the secure store, so requests keep carrying it (`LoginScreen.SignOutKeepsHeader`).
- **Round trips.**
  - Joining comma-free tags with commas and parsing them back gives the same tags (`AddPost.ParseJoin`).
  - A rendered time label parses back to the same label (`TimeAgo.RenderParse`).
  - `split` and `join` are inverses (`Common.SplitJoin`, `Common.JoinSplit`).
  - For a user who had not liked the post, liking then unliking restores the likes (`Posts.LikeUnlikeRestoresLikes`).
  - Following then unfollowing restores the relation (`FollowSchema.FollowThenUnfollowRestores`).
  - Signing in or out and then restarting the app restores the session (`Session.RestoreRecoversPersisted`).

## Model

| member | source | states |
|---|---|---|
| Common.Trim | client-sosmed/screens/AddPost.js:115 | `trim` keeps the window from the first to the last character outside the JavaScript white-space set (which includes U+00A0, U+FEFF, U+2028 and the other Unicode spaces): only white space lies outside it, and it neither starts nor ends with white space |
| Common.BlankIffAllSpace | client-sosmed/screens/AddPost.js:90 | `!s.trim()` holds exactly when every character is white space |
| Common.TrimIdempotent | client-sosmed/screens/Profile.js:200 | trimming twice is trimming once |
| Common.JsLength | server/models/User.js:47-54 | `.length` counts one unit per character of the Basic Multilingual Plane and two per character beyond it, so it lies between the character count and twice that, and equals it for text within the plane |
| Common.JsLengthAppend | server/models/User.js:47-54 | `.length` of a concatenation is the sum of the lengths |
| Common.Split | server/index.js:30 | `split` yields at least one piece, and no piece contains the separator |
| Common.SplitWithoutSeparator | client-sosmed/screens/AddPost.js:114 | a string without the separator splits into itself alone |
| Common.SplitAtSeparator | client-sosmed/screens/AddPost.js:114 | splitting at one separator gives the pieces before it followed by the pieces after it |
| Common.MapAppend | client-sosmed/screens/AddPost.js:115 | `map` distributes over concatenation |
| Common.JoinSplit | server/index.js:30 | joining the pieces of a split with the same separator gives back the string |
| Common.SplitJoin | server/index.js:30 | splitting a join of separator-free pieces gives back the pieces |
| Common.Filter | client-sosmed/screens/Home.js:89-107 | `filter` keeps exactly the elements satisfying the predicate, and no more than it was given |
| Common.FilterIsSubsequence | client-sosmed/screens/Home.js:89-107 | `filter` keeps relative order |
| Common.FilterAll | client-sosmed/screens/Home.js:89-107 | a filter that keeps everything is the identity |
| Common.FilterNone | client-sosmed/screens/AddPost.js:116 | a filter that keeps nothing yields the empty list |
| Common.FilterAppend | client-sosmed/screens/Search.js:250-252 | filtering distributes over concatenation |
| Common.FilterMultiplicity | client-sosmed/screens/Home.js:89-107 | `filter` keeps every copy of a kept element and no copy of any other |
| Common.FilterSplitsCount | server/models/Post.js:71 | a predicate and its negation together count every element once |
| Common.First | server/models/Post.js:65 | `find` returns the first element satisfying the predicate (no earlier element satisfies it), and nothing exactly when none satisfies |
| Common.IndexOf | server/models/User.js:50 | the first occurrence of a character, or none when it does not occur |
| Common.LexIrreflexive | client-sosmed/screens/Home.js:117 | the default sort order is irreflexive |
| Common.LexTransitive | client-sosmed/screens/Home.js:117 | the default sort order is transitive |
| Common.LexTotal | client-sosmed/screens/Home.js:117 | any two distinct strings are ordered one way or the other |
| Cache.Get | server/schemas/post.js:63-67 | a read yields the stored value exactly while the entry is live; a lapsed entry reads as absent and is dropped; nothing else changes |
| Cache.Set | server/schemas/post.js:72 | a write replaces the key's entry with the value and its expiry, and leaves every other key as it was |
| Cache.Delete | server/schemas/post.js:96 | a delete removes only that key and is harmless on an absent key |
| Cache.GetOrPopulate | server/schemas/post.js:63-73 | the database is consulted exactly when the key holds no live entry; a hit serves the entry unchanged; a miss serves and stores the fresh value; other keys are untouched |
| Cache.MissThenHit | server/schemas/post.js:63-73 | after a miss, a read within the lifetime is a hit that serves the fetched value |
| Cache.ExpiredEntryRefetches | server/schemas/post.js:63-73 | when an entry was written with a lifetime, a read after that lifetime has elapsed fetches and serves the current value |
| Cache.DeleteForcesRefetch | server/schemas/post.js:96 | after a delete, the next read of that key consults the database |
| Follows.Create | server/models/Follow.js:9-28 | the followed id is required, then the follower id; the record is appended, duplicates included |
| Follows.FirstMatch | server/models/Follow.js:48-53 | `deleteOne` acts on the first record holding the pair, and there is none exactly when no record holds it |
| Follows.CheckFollowing | server/models/Follow.js:40-46 | true exactly when some record holds the pair |
| Follows.DeleteFollow | server/models/Follow.js:48-54 | removes one record for the pair exactly when one exists; the bag of pairs loses exactly that pair |
| Follows.CheckFollowingIffInPairs | server/models/Follow.js:40-46 | a pair is followed exactly when it is in the bag of pairs |
| Follows.Find | server/models/Follow.js:35-38 | `find(filter)` returns exactly the matching records, in collection order, each copy of a repeated record kept |
| Follows.FindEverything | server/models/Follow.js:35 | `find()` with the default filter returns the whole collection |
| Follows.CreateAdmitsDuplicates | server/models/Follow.js:9-28 | `create` alone stores an already-present pair a second time |
| Users.FindById | server/models/User.js:16-19 | a found user has the id, and nothing is found exactly when no user has it |
| Users.FindByUsername | server/models/User.js:21-24 | as `FindById`, for usernames |
| Users.FindByEmail | server/models/User.js:26-29 | as `FindById`, for emails |
| Users.ValidEmailMatchesPattern | server/models/User.js:50-52 | the email scan accepts exactly the strings `^[^\s@]+@[^\s@]+\.[^\s@]+$` matches, with `\s` the JavaScript white-space set (including U+00A0, U+FEFF, U+2028 and the other Unicode spaces) |
| Users.Create | server/models/User.js:43-72 | the checks come in the order `User.create` makes them, each with its message, lengths counted in UTF-16 code units as `.length` does; success exactly for well-formed input whose username and email are both new; the stored record carries the hash; uniqueness is preserved |
| Users.Login | server/models/User.js:74-82 | one message for an unknown user and a wrong password; success exactly when the user exists and the password matches |
| Users.CountAfterCreate | server/models/User.js:140-145 | inserting a record raises the followed user's subscriber count by one and no other user's |
| Users.CountAfterRemoval | server/models/User.js:140-145 | removing a record lowers its followed user's subscriber count by one |
| Users.ProfilesWithId | server/models/User.js:88-101 | the lookup yields only projections of users with that id |
| Users.AtMostOneWithId | server/models/User.js:88-95 | with unique ids a lookup yields at most one profile, and one exactly when the user exists |
| Users.JoinedBounded | server/models/User.js:84-138 | a join lists at most one profile per selected record, and exactly one when every referenced user exists |
| Users.FollowersBoundedByCount | server/models/User.js:84-110 | `getFollowers` lists no more users than `getSubscriberCount` counts, and exactly as many when every follower exists |
| Users.FollowingBoundedByCount | server/models/User.js:112-138 | `getFollowing` lists no more users than the user has follow records, and exactly as many when every followed user exists |
| Posts.IndexOfId | server/models/Post.js:17-20 | the first post with the id, and none exactly when no post has it |
| Posts.FindById | server/models/Post.js:17-20 | a found post has the id, and nothing is found exactly when no post has it |
| Posts.FindAfterReplace | server/models/Post.js:48-54 | an update of the first post with an id is what that id then finds |
| Posts.Create | server/models/Post.js:22-39 | content is required, then the author id; tags default to empty; comments and likes start empty; both timestamps are the creation instant; the post is appended |
| Posts.CreatedIsFound | server/models/Post.js:33-38 | a post created under an unused id is found under it |
| Posts.AddComment | server/models/Post.js:41-57 | content, then username, are required; the comment is appended to the post and `updatedAt` is set; a missing post changes nothing; other posts are untouched |
| Posts.WithoutLiker | server/models/Post.js:71 | `$pull` is exactly the filter keeping the likes by other users: every such like, each copy, in array order; the user leaves the likers set |
| Posts.WithoutLikerKeepsDistinct | server/models/Post.js:71 | `$pull` never makes a username appear twice |
| Posts.AppendedLiker | server/models/Post.js:78-84 | `$push` of a like by a new username adds exactly that username to the likers and keeps them distinct |
| Posts.WithoutLikerKeepsOrder | server/models/Post.js:71 | the result is a subsequence of the likes, shorter by exactly the number of the user's likes |
| Posts.Toggled | server/models/Post.js:65-84 | if the user has liked, the result is exactly the likes without the user's (the `$pull`); otherwise `Like(user, now, now)` is appended at the end and the earlier likes are unchanged; the likers set loses or gains exactly the user; no username ever appears twice |
| Posts.AddLike | server/models/Post.js:59-87 | the username is required before the lookup; "Post not found" without a post; the likes are toggled; the returned like is the first existing like by the user (as `find` returns it) or else the new one; other posts are untouched |
| Posts.LikeTwiceRestoresLikers | server/models/Post.js:59-87 | two likes by the same user leave the likers as they were |
| Posts.LikeUnlikeRestoresLikes | server/models/Post.js:59-87 | for a user who had not liked, liking then unliking restores the list exactly |
| Posts.WithoutAbsentAppended | server/models/Post.js:71-83 | pulling a user's only like, which was just pushed, gives back the earlier list |
| Posts.DeleteById | server/models/Post.js:304-309 | removes one post exactly when the id is found; the collection loses exactly that post |
| Posts.Insert | server/models/Post.js:12 | inserting into a newest-first list keeps it newest-first and adds exactly the post |
| Posts.SortNewestFirst | server/models/Post.js:12 | the result is newest-first and a permutation of the input |
| Posts.FindAll | server/models/Post.js:9-15 | every post exactly once, newest first |
| Posts.WithAuthor | server/models/Post.js:92-100 | the author is attached exactly when a user has the post's author id |
| Posts.GetPostWithAuthor | server/models/Post.js:89-194 | null exactly when no post has the id; otherwise that post, joined |
| Posts.GetPostsWithAuthor | server/models/Post.js:196-302 | one joined view per post, each post present, newest first |
| PostSchema.WriteThenDrop | server/schemas/post.js:141-150 | the store write comes before every drop, and exactly the given keys are dropped |
| PostSchema.AllPosts | server/schemas/post.js:56-74 | a failed `auth()` changes nothing; the store is read exactly on a cache miss; a hit serves the entry; a miss stores and serves the fresh feed with the lifetime; in a coherent state the answer is the fresh feed |
| PostSchema.PostQuery | server/schemas/post.js:75-80 | `post(id)` answers the joined post straight from the store and never touches the cache |
| PostSchema.AddPost | server/schemas/post.js:83-100 | create errors pass through with nothing changed; on success the post is stored, then the feed is dropped, and a post created under a fresh id is answered joined |
| PostSchema.ProfileByUsername | server/schemas/post.js:111-114 | the commenter's public fields exactly when a user has the username |
| PostSchema.CommentPost | server/schemas/post.js:101-116 | comment errors pass through with nothing changed; on success the resolver answers the comment after the `addComment` write (which stores it when the post exists and changes nothing when the post is gone), then the feed and the post's entry are dropped |
| PostSchema.LikePost | server/schemas/post.js:117-132 | like errors pass through with nothing changed; on success the toggle is stored, then the feed and the post's entry are dropped |
| PostSchema.DeletePost | server/schemas/post.js:133-153 | "Post not found" for a missing post; "Failed to delete post" never happens; otherwise the post before deletion is answered, and both entries are dropped after the delete |
| PostSchema.FeedDroppedKeepsInvariants | server/schemas/post.js:96 | a cache without the feed key is trivially coherent |
| PostSchema.Handle | server/schemas/post.js:55-154 | every post resolver keeps the cache to the feed key and the cached feed equal to the store's feed, and fails without side effects |
| PostSchema.RunKeepsInvariants | server/schemas/post.js:55-154 | any sequence of post requests keeps both cache invariants |
| PostSchema.FeedNeverStale | server/schemas/post.js:63-73 | after any run from an empty cache, `allposts` answers exactly the store's current feed (its content; date encoding differs between a hit and a miss, as Left out says) |
| FollowSchema.GetUserFollows | server/schemas/follow.js:40-49 | exactly the records whose follower is the user, in collection order, each copy of a repeated record kept |
| FollowSchema.FollowUser | server/schemas/follow.js:52-83 | an existing pair answers "Already following this user" and changes nothing; otherwise the record is added and the follower count is one higher; success exactly for a new pair with both ids; no duplicate pair is ever created |
| FollowSchema.Unfollow | server/schemas/follow.js:84-110 | "Not following this user" when no record is removed; otherwise one record is removed and the count is one lower; afterwards the pair is not followed |
| FollowSchema.FollowThenUnfollowRestores | server/schemas/follow.js:52-110 | following a new pair then unfollowing it restores the relation exactly |
| FollowSchema.SelfFollowAccepted | server/schemas/follow.js:52-83 | nothing on the server refuses a user following themselves |
| UserSchema.UsersQuery | server/schemas/user.js:41-46 | behind `auth()`, exactly the stored users in collection order |
| UserSchema.UserQuery | server/schemas/user.js:47-59 | null exactly when no user has the id; otherwise the user with their subscriber count |
| UserSchema.SearchUsers | server/schemas/user.js:60-74 | each matched user, in order, with their subscriber count |
| UserSchema.Register | server/schemas/user.js:77-81 | `User.create` unguarded: its errors pass through, and success appends the hashed record |
| UserSchema.Login | server/schemas/user.js:82-86 | the token is signed over the user's id and username; one message for every failure |
| UserSchema.RegisterThenLogin | server/schemas/user.js:77-86 | a fresh registration can log in at once with the same password |
| AuthHeader.Authenticate | server/index.js:24-49 | missing header, then format, then scheme (any casing), then token and user; success exactly when all pass, and yields the token's user |
| AuthHeader.SchemeAndTokenOfJoin | server/index.js:30-31 | the scheme and token are the first two space-separated words |
| AuthHeader.BearerIgnoresTrailingWords | server/index.js:30-45 | words after the token are ignored |
| AuthHeader.BareSchemeIsFormatError | server/index.js:32-34 | a header with no token is a format error whatever the scheme |
| AuthHeader.DoubleSpaceIsFormatError | server/index.js:30-34 | two spaces before the token leave an empty token, which is a format error |
| TimeAgo.FormatTimeAgo | client-sosmed/screens/Home.js:53-74 | the unit scan agrees with the unit-by-unit ladder |
| TimeAgo.FitsIffAtLeastOne | client-sosmed/screens/Home.js:68-69 | a floored count is at least one exactly when the time reaches the unit |
| TimeAgo.LadderMeaning | client-sosmed/screens/Home.js:53-74 | "just now" exactly under a minute; otherwise the count of the largest fitting unit brackets the elapsed time |
| TimeAgo.ValueOfNumeral | client-sosmed/screens/Home.js:70 | the decimal numeral reads back as its number |
| TimeAgo.LadderProducible | client-sosmed/screens/Home.js:53-74 | every label the scan produces has a positive count and a unit name |
| TimeAgo.RenderParse | client-sosmed/screens/Home.js:70-73 | every producible label renders to text that parses back to it |
| TimeAgo.FormatTimeAgoText | client-sosmed/screens/Home.js:53-74 | the text reads back as the ladder's label, and is "just now" exactly under a minute |
| Client.HandleLike | client-sosmed/screens/PostDetail.js:164-181 | a username is required, else "Login Required"; the like is sent with that username |
| Client.LikedImpliesCounted | client-sosmed/screens/Profile.js:317-320 | a post highlighted as liked has at least one like |
| Alerts.GetIcon | client-sosmed/components/CustomAlert.js:21-32 | three known types have their icons; every other type shows the info icon |
| Alerts.Shown | client-sosmed/components/CustomAlert.js:58-92 | the given buttons, or a single "OK" when there are none |
| Alerts.Press | client-sosmed/components/CustomAlert.js:68-71 | a press runs the button's action, then the dismiss action, each only if present |
| Alerts.Visible | client-sosmed/components/CustomAlert.js:51-54 | title and message are drawn exactly when truthy |
| Alerts.DefaultsDismissOnly | client-sosmed/components/CustomAlert.js:17-18 | with type and buttons left out, the alert is an info alert whose button only dismisses |
| Home.FilteredPosts | client-sosmed/screens/Home.js:89-107 | a post is shown exactly when it passes the main tag filter (off at "All") and the related tag filter (off when none is selected), ignoring case; feed order is kept, and each shown post appears as often as in the feed |
| Home.AllShowsEverything | client-sosmed/screens/Home.js:89-107 | "All" with no related tag shows the whole feed in order |
| Home.UntaggedHiddenByActiveFilter | client-sosmed/screens/Home.js:93-103 | a post without tags is hidden by any active filter |
| Home.InsertTag | client-sosmed/screens/Home.js:110-118 | adding a tag to a sorted tag set keeps it sorted and duplicate-free |
| Home.TagsOf | client-sosmed/screens/Home.js:112-116 | exactly the tags found on some post |
| Home.SortedDistinct | client-sosmed/screens/Home.js:117 | the distinct elements, sorted |
| Home.AllTags | client-sosmed/screens/Home.js:110-118 | exactly the tags found on some post, once each, in sort order |
| Home.SortedHasNoDuplicates | client-sosmed/screens/Home.js:110-118 | the tag list repeats no tag |
| Home.PressRelatedTag | client-sosmed/screens/Home.js:168-172 | pressing the selected chip clears the selection; pressing another selects it |
| Home.PressTwice | client-sosmed/screens/Home.js:168-172 | from no selection, or from that chip's own selection, pressing a chip twice returns to where it started |
| AddPost.ParseTags | client-sosmed/screens/AddPost.js:113-116 | parsed tags are non-empty, contain no comma, and are trimmed |
| AddPost.ParseTagsAppend | client-sosmed/screens/AddPost.js:113-116 | a comma splits the field: the tags of the whole are the tags before it followed by the tags after it, in order, duplicates kept |
| AddPost.ParseTagsPiece | client-sosmed/screens/AddPost.js:113-116 | a field with no comma gives no tag when blank and otherwise exactly its trimmed text |
| AddPost.ParseJoin | client-sosmed/screens/AddPost.js:113-116 | comma-joined trimmed tags parse back to the same list |
| AddPost.BlankParsesToNothing | client-sosmed/screens/AddPost.js:113-116 | a blank tags field yields no tags |
| AddPost.HandleSubmit | client-sosmed/screens/AddPost.js:88-127 | blank content warns, then a missing user warns; otherwise trimmed content, tags or null, trimmed image URL or null, and the user id are sent |
| AddPost.PreviewMatchesSubmission | client-sosmed/screens/AddPost.js:230-240 | the preview chips are the tags a submit would send, and an enabled button never produces the blank-content warning |
| AddPost.OnCompleted | client-sosmed/screens/AddPost.js:57-76 | every field is cleared, the button disables, and the success alert is shown |
| AddPost.PostedLeadsHome | client-sosmed/screens/AddPost.js:64-75 | the success alert's only button goes back to the feed and then closes the alert |
| Session.SignIn | client-sosmed/context/AuthContext.js:39-48 | sets token and user, and persists exactly those; signed in exactly when the token is non-empty |
| Session.SignOut | client-sosmed/context/AuthContext.js:50-57 | clears token and user and both stored keys; signed out |
| Session.Restore | client-sosmed/context/AuthContext.js:20-34 | takes over a stored truthy token and a stored user; a failed read takes over nothing; always hydrates |
| Session.RestoreRecoversPersisted | client-sosmed/context/AuthContext.js:22-32 | a state that agrees with its storage is recovered exactly by a restart |
| Session.SignInSurvivesRestart | client-sosmed/context/AuthContext.js:39-48 | after a sign-in with a non-empty token, a restart is signed in with the same token and user |
| Session.SignOutSurvivesRestart | client-sosmed/context/AuthContext.js:50-57 | after a sign-out, a restart is signed out |
| LoginScreen.HandleLogin | client-sosmed/screens/Login.js:81-98 | both fields must be non-blank, else the warning; the username is sent trimmed and the password as typed |
| LoginScreen.OnCompleted | client-sosmed/screens/Login.js:54-69 | no token: "Token tidak ditemukan" and nothing changes; otherwise the token is stored securely and the session signs in with it |
| LoginScreen.SignOut | client-sosmed/context/AuthContext.js:50-57 | signing out leaves the secure store as it was |
| LoginScreen.LoginHeaderAuthenticates | client-sosmed/config/apollo.js:10-18 | after a login, the header's token is the login token, and the server authenticates it as that token |
| LoginScreen.NoStoredTokenNoAccess | client-sosmed/config/apollo.js:10-18 | with no stored token the header is empty and the server answers "Please login to access this resource" |
| LoginScreen.SignOutKeepsHeader | client-sosmed/config/apollo.js:10-18 | after a sign-out the session is signed out but requests still carry the old token |
| RegisterScreen.UpdateField | client-sosmed/screens/Register.js:108-110 | only the named field changes |
| RegisterScreen.FieldsDetermineForm | client-sosmed/screens/Register.js:45-50 | two forms with the same fields are the same form |
| RegisterScreen.UpdateFieldLaws | client-sosmed/screens/Register.js:108-110 | the last write to a field wins, and writing a field's own value changes nothing |
| RegisterScreen.HandleRegister | client-sosmed/screens/Register.js:86-106 | username, email and password must be non-blank, else the warning; name, username and email are sent trimmed, the password as typed |
| RegisterScreen.SentRegistrationHasRequiredFields | client-sosmed/screens/Register.js:86-106 | a sent registration never fails the server's three "is required" checks |
| RegisterScreen.PresentFieldsPassPresenceChecks | server/models/User.js:43-62 | with all three fields present, `User.create` succeeds or fails only a later check |
| RegisterScreen.Failed | client-sosmed/screens/Register.js:74-82 | a failure shows the server's message in an error alert with a plain OK |
| RegisterScreen.RegisteredLeadsToLogin | client-sosmed/screens/Register.js:60-73 | the success alert's only button goes to the login screen and then closes the alert |
| Search.Decide | client-sosmed/screens/Search.js:217-241 | "Login Required" without a user id, then "Cannot Subscribe" for oneself; otherwise unfollow exactly when the id is already subscribed |
| Search.Toggle | client-sosmed/screens/Search.js:250-252 | after a toggle the target is listed exactly when the request was a subscribe; every other id is listed exactly as before; a subscribe appends the id at the end of the unchanged list; an unsubscribe keeps the remaining ids in their order (a subsequence) |
| Search.Settle | client-sosmed/screens/Search.js:242-323 | errors and refusals change only the alert; success toggles the list, updates the selected count, and shows the success alert; with no selection the toggled list stays and an error is shown |
| Search.SubscribeThenUnsubscribe | client-sosmed/screens/Search.js:250-278 | subscribing to a new id then unsubscribing restores the list |
| Search.CheckFollowingAppend | server/models/Follow.js:40-46 | appending a record makes exactly its pair followed in addition |
| Search.CheckFollowingAfterDelete | server/models/Follow.js:48-54 | deleting one pair leaves every other pair's status as it was |
| Search.ToggleKeepsMirror | client-sosmed/screens/Search.js:217-324 | when the server serves a sent toggle, it succeeds and the client's list still names exactly the users followed on the server |
| Search.LoadFollows | client-sosmed/screens/Search.js:161-189 | with a user and an answer, the list becomes the followed ids in answer order; otherwise nothing changes |
| Search.LoadedFollowsMirror | client-sosmed/screens/Search.js:172-176 | loading `getUserFollows` makes the list name exactly the users followed on the server |
| Search.OnUserChange | client-sosmed/screens/Search.js:153-159 | signing out empties the list |
| Search.HandleSearch | client-sosmed/screens/Search.js:326-329 | typing sets the search and closes the selection; nothing else changes |
| Search.HandleSelectUser | client-sosmed/screens/Search.js:331-334 | selecting sets the selection and clears the search; nothing else changes |
| Search.SelectThenSearch | client-sosmed/screens/Search.js:326-334 | typing after selecting is the same as typing |
| Search.UserPosts | client-sosmed/screens/Search.js:370-372 | exactly the selected user's posts in feed order, each as often as in the feed; none without a selection |
| Profile.MyPosts | client-sosmed/screens/Profile.js:154-157 | exactly the posts authored by the signed-in user, in feed order, each as often as in the feed |
| Profile.SignedOutOwnsNothing | client-sosmed/screens/Profile.js:154-157 | without a user id there are no own posts |
| Profile.HandleComment | client-sosmed/screens/Profile.js:199-225 | blank input warns "Empty Comment" before "Login Required"; otherwise the trimmed text is sent and only that post's box is cleared |
| Profile.SentCommentAccepted | client-sosmed/screens/Profile.js:199-225 | a sent comment passes the server's checks and carries no padding |
| Profile.UserInitial | client-sosmed/screens/Profile.js:250-252 | the upper-cased first character of the name, else of the username, else "U"; never a lower-case letter |
| Profile.FollowersShown | client-sosmed/screens/Profile.js:284 | a missing count shows as 0 |
| Profile.FollowersLabel | client-sosmed/screens/Profile.js:287-289 | singular exactly for a count of one |
| Profile.LabelAgreesWithCount | client-sosmed/screens/Profile.js:282-290 | the label is singular exactly when the number shown is 1 |
| PostDetail.ScreenOf | client-sosmed/screens/PostDetail.js:243-270 | loading, then error, then "Post tidak ditemukan", then the content |
| PostDetail.HandlePostComment | client-sosmed/screens/PostDetail.js:184-207 | blank text does nothing; then a username is required; the text is sent untrimmed |
| PostDetail.SentCommentClearsBox | client-sosmed/screens/PostDetail.js:97-111 | a comment this screen sends through `commentPost` gets an `Ok` answer and the box is cleared when `auth()` passes, storing the comment when the post exists (a post deleted meanwhile also answers `Ok`, with nothing stored); when `auth()` fails the resolver answers an error and the box keeps the text |
| PostDetail.SentCommentAccepted | client-sosmed/screens/PostDetail.js:184-207 | a sent comment passes the server's checks |
| PostDetail.PaddingDependsOnScreen | client-sosmed/screens/PostDetail.js:200-204 | for every non-blank text from a logged-in user, this screen sends the text as typed and the profile screen sends it trimmed; the two requests agree exactly when trimming leaves the text unchanged |
| PostDetail.CanDelete | client-sosmed/screens/PostDetail.js:283-291 | the delete control is shown exactly to the post's author |
| PostDetail.FeedOf | client-sosmed/screens/PostDetail.js:90-93 | the post as fetched keeps its id, author and tags |
| PostDetail.HighlightMatchesLikers | client-sosmed/screens/PostDetail.js:352-380 | the highlight is on exactly when the username is among the stored likers; the counts are the stored list lengths |
| PostDetail.LikeFlipsHighlight | client-sosmed/screens/PostDetail.js:164-181 | a like sent through `likePost` for an existing post succeeds and flips the highlight when `auth()` passes; when `auth()` fails the answer is an error and the stored likes, so the highlight, are unchanged |

## Left out

- The Redis connection and its `isOpen` check are not modelled. The cache store is a map that is always available.
- JSON serialisation of the cached feed is taken to be the identity. It is not quite: on a miss `createdAt` is a `Date`, which the GraphQL `String` scalar sends as a millisecond string, while on a hit it is the ISO string `JSON.stringify` wrote. `new Date(dateString)` in Home.js, Profile.js and Search.js parses only the ISO form, whereas PostDetail.js accepts both. So the "exactly" of `PostSchema.FeedNeverStale` holds for the feed's content and ignores how dates are encoded.
- Dates become whole seconds on an abstract clock.
- Database driver failures, and `new ObjectId(x)` throwing on a malformed id, are not modelled. Ids are opaque strings.
- `searchByNameOrUsername` is left out: its case-insensitive regular expression is evaluated by the database. `UserSchema.SearchUsers` takes the matched users as a parameter.
- bcrypt hashing and comparison are function parameters. So are JWT signing and verification. The JWT helper (server/helpers/jwt.js) is not part of this model.
- The joins of comment and like authors in the two feed aggregations are left out. Only the post's author join is modelled.
- Posts.SortNewestFirst: posts with equal `createdAt` come out in one fixed order. The database leaves that order unspecified.
- PostSchema.Coherent is not preserved by `register`: a new user could become the author of an existing post whose author id was dangling. User resolvers are outside the post request sequence, and ids are database-assigned, so this is not modelled.
- Concurrency between requests is not modelled. Requests are served one at a time.
- The cache check and populate in `allposts` are separate awaits, not one atomic step, and that race is not modelled.
- String handling is simplified:
  - `toLowerCase` and `toUpperCase` cover ASCII letters only.
  - The default sort compares characters, which matches UTF-16 code units only within the Basic Multilingual Plane.
- Profile.UserInitial: `.charAt(0)` returns the first UTF-16 code unit, so for a name that starts beyond the Basic Multilingual Plane (an emoji, say) the source shows a lone high surrogate. The model takes the first character whole, since its strings are sequences of characters, not code units.
- `formatViews` and the date formatting use floating point and locales, so they are not modelled.
- Rendering, styles, navigation stacks and tab bars are not modelled.
- Cache lifetime: server/schemas/post.js:72 writes the feed with `set("posts:all", …, "EX", 60)`, passing the expiry as extra positional arguments. The node-redis v4 client created in server/config/redis.js takes options as an object, so the key may be stored with no expiry at all. The model therefore takes the lifetime as a parameter of type `Option<nat>`; `None` is a key that never expires. `PostSchema.FeedNeverStale` holds for every lifetime, including `None`.
- The `subscribedUsers` copy in device storage is not modelled; only the in-memory list is.
- Session.Restore: a stored user that fails `JSON.parse` is not modelled. In `AuthContext` that failure happens after the token has already been taken over.
- Search.Settle: a GraphQL error surfaces through `onError` as a read of `result.data` that throws. It is modelled as an `Err` answer with an unspecified message.
- Profile.HandleComment: the mutation's `onError` resolves the promise, so the box is cleared even when the server refuses the comment. The model clears it whenever the comment is sent, which agrees with this.
- The delete confirmation dialogs on the profile and detail screens are not modelled, and neither is the `SubscribersScreen` list.

=== FILE: add_post.dfy ===
/** The new-post form: comma-separated tag parsing, the submit checks and
    how the form's strings become the mutation's variables. */
module AddPost {
  import opened Common
  import opened Client
  import Alerts

  /** `input.split(",").map(t => t.trim()).filter(t => t.length > 0)`. */
  function ParseTags(input: string): (r: seq<string>)
    ensures forall i :: 0 <= i < |r| ==> r[i] != "" && ',' !in r[i]
    ensures forall i :: 0 <= i < |r| ==> Trim(r[i]) == r[i]
  {
    var pieces := Split(input, ',');
    var trimmed := Map(pieces, Trim);
    forall i | 0 <= i < |trimmed| ensures ',' !in trimmed[i] && Trim(trimmed[i]) == trimmed[i] {
      TrimIsInfix(pieces[i]);
      TrimIdempotent(pieces[i]);
    }
    Filter(trimmed, (t: string) => |t| > 0)
  }

  /** A comma splits the field in two: the tags of the whole are the tags
      of the part before it followed by the tags of the part after it. */
  lemma ParseTagsAppend(a: string, b: string)
    ensures ParseTags(a + [','] + b) == ParseTags(a) + ParseTags(b)
  {
    var keep := (t: string) => |t| > 0;
    SplitAtSeparator(a, b, ',');
    var pa := Split(a, ',');
    var pb := Split(b, ',');
    MapAppend(pa, pb, Trim);
    FilterAppend(Map(pa, Trim), Map(pb, Trim), keep);
  }

  /** A field without a comma holds one tag, its trimmed text, unless it
      is blank. */
  lemma ParseTagsPiece(s: string)
    requires ',' !in s
    ensures ParseTags(s) == if Blank(s) then [] else [Trim(s)]
  {
    SplitWithoutSeparator(s, ',');
    assert Map([s], Trim) == [Trim(s)];
  }

  /** Trimming only removes characters. */
  lemma TrimIsInfix(s: string)
    ensures forall c :: c in Trim(s) ==> c in s
  {
    var r := Trim(s);
    var i := SkipSpaces(s, 0);
    forall c | c in r ensures c in s {
      var k :| 0 <= k < |r| && r[k] == c;
      assert s[i + k] == c;
    }
  }

  /** Tags that are non-empty, trimmed and comma-free survive a join with
      "," and a parse unchanged, in order, duplicates included. */
  lemma ParseJoin(tags: seq<string>)
    requires |tags| >= 1
    requires forall i :: 0 <= i < |tags| ==> tags[i] != "" && Trim(tags[i]) == tags[i] && ',' !in tags[i]
    ensures ParseTags(Join(tags, ',')) == tags
  {
    SplitJoin(tags, ',');
    assert Map(tags, Trim) == tags;
    FilterAll(tags, (t: string) => |t| > 0);
  }

  /** Every piece of a split consists of characters of the split string. */
  lemma {:induction false} SplitPiecesFromSource(s: string, sep: char)
    ensures forall i, c :: 0 <= i < |Split(s, sep)| && c in Split(s, sep)[i] ==> c in s
    decreases |s|
  {
    if |s| > 0 {
      SplitPiecesFromSource(s[1..], sep);
      assert forall c :: c in s[1..] ==> c in s;
    }
  }

  /** A tags field that is blank yields no tags. */
  lemma BlankParsesToNothing(input: string)
    requires Blank(input)
    ensures ParseTags(input) == []
  {
    BlankIffAllSpace(input);
    var pieces := Split(input, ',');
    SplitPiecesFromSource(input, ',');
    forall i | 0 <= i < |pieces| ensures Trim(pieces[i]) == [] {
      assert forall k :: 0 <= k < |pieces[i]| ==> pieces[i][k] in input;
      assert AllSpace(pieces[i]);
      BlankIffAllSpace(pieces[i]);
    }
    var trimmed := Map(pieces, Trim);
    FilterNone(trimmed, (t: string) => |t| > 0);
  }

  datatype Form = Form(content: string, tagsInput: string, imgUrl: string)

  /** The `addPost` variables. */
  datatype Variables = Variables(content: string, tags: Option<seq<string>>, imgUrl: Option<string>, authorId: string)

  const EmptyContent := Notice("Error", "Content tidak boleh kosong")
  const NotLoggedIn := Notice("Error", "Silakan login terlebih dahulu")

  /** `handleSubmit`: blank content is refused before the login check; the
      content and image URL are sent trimmed, an empty tag list as null and
      a blank image URL as null. */
  function HandleSubmit(form: Form, user: Option<ClientUser>): (r: Handled<Variables>)
    ensures Blank(form.content) ==> r == Warn(EmptyContent)
    ensures !Blank(form.content) && !Present(UserId(user)) ==> r == Warn(NotLoggedIn)
    ensures r.Send? <==> !Blank(form.content) && Present(UserId(user))
    ensures r.Send? ==>
      && r.request.content == Trim(form.content) && r.request.content != ""
      && r.request.authorId == UserId(user).value
      && (r.request.tags.None? <==> ParseTags(form.tagsInput) == [])
      && r.request.tags.GetOr([]) == ParseTags(form.tagsInput)
      && (r.request.imgUrl.None? <==> Blank(form.imgUrl))
      && (r.request.imgUrl.Some? ==> r.request.imgUrl.value == Trim(form.imgUrl))
    ensures !r.Ignore?
  {
    if Blank(form.content) then Warn(EmptyContent)
    else if !Present(UserId(user)) then Warn(NotLoggedIn)
    else
      var tags := ParseTags(form.tagsInput);
      Send(Variables(
        Trim(form.content),
        if |tags| > 0 then Some(tags) else None,
        if Blank(form.imgUrl) then None else Some(Trim(form.imgUrl)),
        UserId(user).value))
  }

  /** The Post button is enabled unless a request is in flight or the
      content is blank. */
  predicate PostEnabled(loading: bool, form: Form) {
    !loading && !Blank(form.content)
  }

  /** The chips shown under the tags field: none while it is blank, the
      parsed tags otherwise. */
  function Preview(tagsInput: string): seq<string> {
    if Blank(tagsInput) then [] else ParseTags(tagsInput)
  }

  /** The preview shows exactly the tags a submit would send, and an
      enabled button never produces the blank-content warning. */
  lemma PreviewMatchesSubmission(form: Form, user: Option<ClientUser>, loading: bool)
    ensures HandleSubmit(form, user).Send? ==> HandleSubmit(form, user).request.tags.GetOr([]) == Preview(form.tagsInput)
    ensures PostEnabled(loading, form) ==> HandleSubmit(form, user) != Warn(EmptyContent)
  {
    if Blank(form.tagsInput) {
      BlankParsesToNothing(form.tagsInput);
    }
  }

  /** What the success alert's callbacks do. */
  datatype Action = GoHome | CloseAlert

  /** The alert shown once the post exists. */
  const Posted: Alerts.Props<Action> := Alerts.Props(
    Some("Berhasil"),
    Some("Post berhasil dibuat!"),
    Some("success"),
    Some([Alerts.Button("OK", Some(GoHome))]),
    Some(CloseAlert))

  /** After the post is created every field is cleared and the success
      alert is shown. */
  function OnCompleted(form: Form): (r: (Form, Alerts.Props<Action>))
    ensures r.0.content == "" && r.0.tagsInput == "" && r.0.imgUrl == ""
    ensures !PostEnabled(false, r.0) && Preview(r.0.tagsInput) == []
    ensures r.1 == Posted
  {
    assert Blank("");
    (Form("", "", ""), Posted)
  }

  /** The success alert's only button leads back to the feed and then
      closes the alert. */
  lemma PostedLeadsHome()
    ensures Alerts.Shown(Posted) == [Alerts.Button("OK", Some(GoHome))]
    ensures Alerts.Press(Alerts.Shown(Posted)[0], Posted.onDismiss) == [GoHome, CloseAlert]
  {
  }
}

=== FILE: alerts.dfy ===
/** The alert component every screen uses: an icon chosen by the alert's
    type, an optional title and message, and a row of buttons. Button
    callbacks are opaque actions of type `A`; pressing a button yields the
    actions it runs, in order. */
module Alerts {
  import opened Common

  datatype Icon = Icon(name: string, color: string)

  /** `getIcon`: three known types, everything else shows the info icon. */
  function GetIcon(kind: string): (r: Icon)
    ensures kind == "success" ==> r == Icon("check-circle", "#4caf50")
    ensures kind == "error" ==> r == Icon("x-circle", "#ff0000")
    ensures kind == "warning" ==> r == Icon("alert-circle", "#ff9800")
    ensures kind !in {"success", "error", "warning"} ==> r == Icon("info", "#2196f3")
  {
    if kind == "success" then Icon("check-circle", "#4caf50")
    else if kind == "error" then Icon("x-circle", "#ff0000")
    else if kind == "warning" then Icon("alert-circle", "#ff9800")
    else Icon("info", "#2196f3")
  }

  datatype Button<A> = Button(text: string, onPress: Option<A>)

  /** The component's props; `kind` and `buttons` may be left out. */
  datatype Props<A> = Props(
    title: Option<string>,
    message: Option<string>,
    kind: Option<string>,
    buttons: Option<seq<Button<A>>>,
    onDismiss: Option<A>)

  /** The type after defaulting: "info" when left out. */
  function KindOf<A>(p: Props<A>): string {
    p.kind.GetOr("info")
  }

  /** The buttons after defaulting: none when left out. */
  function ButtonsOf<A>(p: Props<A>): seq<Button<A>> {
    p.buttons.GetOr([])
  }

  /** The buttons drawn: the given ones, or one "OK" button that does
      nothing but dismiss. */
  function Shown<A>(p: Props<A>): (r: seq<Button<A>>)
    ensures |r| >= 1
    ensures |ButtonsOf(p)| > 0 ==> r == ButtonsOf(p)
    ensures |ButtonsOf(p)| == 0 ==> r == [Button("OK", None)]
  {
    if |ButtonsOf(p)| > 0 then ButtonsOf(p) else [Button("OK", None)]
  }

  /** Pressing a drawn button runs its own action if it has one, then the
      dismiss action if there is one. The default button's handler is the
      dismiss action itself, which this formula also covers. */
  function Press<A>(b: Button<A>, onDismiss: Option<A>): (r: seq<A>)
    ensures |r| <= 2
    ensures b.onPress.Some? ==> |r| >= 1 && r[0] == b.onPress.value
    ensures onDismiss.Some? ==> |r| >= 1 && r[|r| - 1] == onDismiss.value
    ensures forall a :: a in r ==> Some(a) == b.onPress || Some(a) == onDismiss
  {
    (if b.onPress.Some? then [b.onPress.value] else []) + (if onDismiss.Some? then [onDismiss.value] else [])
  }

  /** The title and message are drawn only when truthy. */
  function Visible(text: Option<string>): (r: Option<string>)
    ensures r.Some? <==> text.Some? && Truthy(text.value)
    ensures r.Some? ==> r == text
  {
    if text.Some? && Truthy(text.value) then text else None
  }

  /** With no type and no buttons the alert is an info alert whose only
      button dismisses it and does nothing else. */
  lemma DefaultsDismissOnly<A>(p: Props<A>)
    requires p.kind.None? && p.buttons.None?
    ensures GetIcon(KindOf(p)) == Icon("info", "#2196f3")
    ensures |Shown(p)| == 1 && Shown(p)[0].text == "OK"
    ensures Press(Shown(p)[0], p.onDismiss) == (if p.onDismiss.Some? then [p.onDismiss.value] else [])
  {
  }
}

=== FILE: auth_header.dfy ===
/** The `auth()` closure every protected resolver awaits: it reads the
    Authorization header as "<scheme> <token>", insists on the Bearer scheme,
    verifies the token and looks up the user it names. Token verification is
    a parameter: `verify(token)` yields the user id the token was signed
    for, or nothing when the token is invalid or expired. */
module AuthHeader {
  import opened Common
  import Users

  const MissingHeader := "Please login to access this resource"
  const BadFormat := "Invalid authorization format"
  const BadScheme := "Invalid authorization type"
  const BadToken := "Invalid or expired token"

  /** The first two space-separated pieces of the header; a missing second
      piece reads as the empty string, as `undefined` is as falsy as "". */
  function Scheme(header: string): string {
    Split(header, ' ')[0]
  }

  function Token(header: string): string {
    var parts := Split(header, ' ');
    if |parts| >= 2 then parts[1] else ""
  }

  /** The header passes every check that does not need the token verified. */
  predicate WellFormedBearer(header: string) {
    header != "" && Token(header) != "" && Lower(Scheme(header)) == "bearer"
  }

  /** `auth()`: the checks in the order `auth()` makes them. Anything that
      goes wrong from verification on, including a valid token for a user
      that no longer exists, surfaces as one message. */
  function Authenticate(header: Option<string>, verify: string -> Option<string>, users: Users.Users): (r: Result<Users.User>)
    ensures header.None? || header == Some("") ==> r == Err(MissingHeader)
    ensures header.Some? && header.value != "" && Token(header.value) == "" ==> r == Err(BadFormat)
    ensures (header.Some? && header.value != "" && Token(header.value) != ""
      && Lower(Scheme(header.value)) != "bearer") ==> r == Err(BadScheme)
    ensures r.Err? ==> r.msg in {MissingHeader, BadFormat, BadScheme, BadToken}
    ensures r.Ok? <==> (header.Some? && WellFormedBearer(header.value)
      && verify(Token(header.value)).Some?
      && Users.FindById(users, verify(Token(header.value)).value).Some?)
    ensures r.Ok? ==> r.value in users && r.value.id == verify(Token(header.value)).value
  {
    match header
    case None => Err(MissingHeader)
    case Some(h) =>
      if h == "" then Err(MissingHeader)
      else
        var token := Token(h);
        if token == "" then Err(BadFormat)
        else if Lower(Scheme(h)) != "bearer" then Err(BadScheme)
        else match verify(token)
          case None => Err(BadToken)
          case Some(userId) =>
            match Users.FindById(users, userId)
            case None => Err(BadToken)
            case Some(u) => Ok(u)
  }

  /** A header "<scheme> <token> <more> ..." whose pieces hold no space has
      that scheme and that token: whatever follows the token is ignored. */
  lemma SchemeAndTokenOfJoin(scheme: string, token: string, more: seq<string>)
    requires ' ' !in scheme && ' ' !in token
    requires forall i :: 0 <= i < |more| ==> ' ' !in more[i]
    ensures var h := Join([scheme, token] + more, ' ');
      Scheme(h) == scheme && Token(h) == token
  {
    var parts := [scheme, token] + more;
    forall i | 0 <= i < |parts| ensures ' ' !in parts[i] {
      if i >= 2 { assert parts[i] == more[i - 2]; }
    }
    SplitJoin(parts, ' ');
    var h := Join(parts, ' ');
    assert Split(h, ' ') == parts;
  }

  /** Any casing of "Bearer" followed by a token, and possibly more
      space-separated words, authenticates exactly as the token does. */
  lemma BearerIgnoresTrailingWords(scheme: string, token: string, more: seq<string>,
                                   verify: string -> Option<string>, users: Users.Users)
    requires Lower(scheme) == "bearer"
    requires ' ' !in token && token != ""
    requires forall i :: 0 <= i < |more| ==> ' ' !in more[i]
    ensures Authenticate(Some(Join([scheme, token] + more, ' ')), verify, users)
      == (match verify(token)
          case None => Err(BadToken)
          case Some(id) => (match Users.FindById(users, id) case None => Err(BadToken) case Some(u) => Ok(u)))
  {
    BearerHasNoSpace(scheme);
    SchemeAndTokenOfJoin(scheme, token, more);
    var h := Join([scheme, token] + more, ' ');
    assert Split([], ' ') == [[]];
    assert h != "" && WellFormedBearer(h);
  }

  lemma BearerHasNoSpace(scheme: string)
    requires Lower(scheme) == "bearer"
    ensures ' ' !in scheme
  {
    forall i | 0 <= i < |scheme| ensures scheme[i] != ' ' {
      assert Lower(scheme)[i] == LowerChar(scheme[i]);
      assert "bearer"[i] != ' ';
    }
  }

  /** A bare scheme with no token is a format error, whatever the scheme:
      the format is checked before the scheme. */
  lemma BareSchemeIsFormatError(scheme: string, verify: string -> Option<string>, users: Users.Users)
    requires scheme != "" && ' ' !in scheme
    ensures Authenticate(Some(scheme), verify, users) == Err(BadFormat)
  {
    SplitJoin([scheme], ' ');
  }

  /** Two spaces between scheme and token leave an empty second piece, which
      is a format error. */
  lemma DoubleSpaceIsFormatError(scheme: string, token: string, verify: string -> Option<string>, users: Users.Users)
    requires ' ' !in scheme && ' ' !in token
    ensures Authenticate(Some(scheme + "  " + token), verify, users) == Err(BadFormat)
  {
    var parts := [scheme, "", token];
    assert Join(parts[2..], ' ') == token;
    assert Join(parts[1..], ' ') == [' '] + token;
    assert Join(parts, ' ') == scheme + "  " + token;
    SchemeAndTokenOfJoin(scheme, "", [token]);
  }
}

=== FILE: cache.dfy ===
/** The key/value store the server keeps serialized query results in: one
    entry per key, each with an optional expiry instant on an abstract clock.
    Reads are lazy about expiry: an expired entry reads as absent and is
    dropped by the read. */
module Cache {
  import opened Common

  datatype Entry<V> = Entry(value: V, expiresAt: Option<int>)

  type Store<V> = map<string, Entry<V>>

  /** An entry is readable until its expiry instant; one written without an
      expiry never lapses. */
  predicate Live<V>(e: Entry<V>, now: int) {
    e.expiresAt.None? || now < e.expiresAt.value
  }

  /** The value `key` currently yields, if any. */
  predicate Holds<V>(s: Store<V>, key: string, now: int) {
    key in s && Live(s[key], now)
  }

  /** The expiry instant of a write at `now` with time-to-live `ttl`
      (no time-to-live: no expiry). */
  function ExpiryAt(now: int, ttl: Option<nat>): Option<int> {
    match ttl
    case None => None
    case Some(t) => Some(now + t)
  }

  datatype Read<V> = Read(value: Option<V>, store: Store<V>)

  /** GET: the stored value while the entry is live; otherwise nothing, and
      an expired entry is removed. */
  function Get<V>(s: Store<V>, key: string, now: int): (r: Read<V>)
    ensures r.value.Some? <==> Holds(s, key, now)
    ensures r.value.Some? ==> r.value.value == s[key].value && r.store == s
    ensures r.value.None? ==> key !in r.store && r.store.Keys == s.Keys - {key}
    ensures forall k :: k in r.store ==> k in s && r.store[k] == s[k]
  {
    if key in s && Live(s[key], now) then Read(Some(s[key].value), s)
    else Read(None, s - {key})
  }

  /** SET: overwrites whatever `key` held; every other key is untouched. */
  function Set<V>(s: Store<V>, key: string, value: V, ttl: Option<nat>, now: int): (r: Store<V>)
    ensures r.Keys == s.Keys + {key}
    ensures r[key] == Entry(value, ExpiryAt(now, ttl))
    ensures forall k :: k in s && k != key ==> r[k] == s[k]
  {
    s[key := Entry(value, ExpiryAt(now, ttl))]
  }

  /** DEL: removes `key` if present; deleting an absent key is not an error. */
  function Delete<V>(s: Store<V>, key: string): (r: Store<V>)
    ensures r.Keys == s.Keys - {key}
    ensures forall k :: k in r ==> r[k] == s[k]
  {
    s - {key}
  }

  datatype Lookup<V> = Lookup(value: V, store: Store<V>, fetched: bool)

  /** Read-through: serve the live entry without consulting the database, or
      take the value `incoming` the database yields, store it under `key` and
      serve it. `fetched` records whether the database was consulted. */
  function GetOrPopulate<V>(s: Store<V>, key: string, ttl: Option<nat>, now: int, incoming: V): (r: Lookup<V>)
    ensures r.store.Keys == s.Keys + {key}
    ensures r.fetched <==> !Holds(s, key, now)
    ensures !r.fetched ==> r.value == s[key].value && r.store == s
    ensures r.fetched ==> r.value == incoming && r.store[key] == Entry(incoming, ExpiryAt(now, ttl))
    ensures forall k :: k in s && k != key ==> r.store[k] == s[k]
  {
    var read := Get(s, key, now);
    match read.value
    case Some(v) => Lookup(v, s, false)
    case None => Lookup(incoming, Set(read.store, key, incoming, ttl, now), true)
  }

  /** A miss populates the key, so a second read before the entry lapses is
      a hit that serves the value the first read fetched. */
  lemma MissThenHit<V>(s: Store<V>, key: string, ttl: Option<nat>, now: int, later: int, incoming: V, incoming': V)
    requires !Holds(s, key, now)
    requires ttl.None? || later < now + ttl.value
    ensures var first := GetOrPopulate(s, key, ttl, now, incoming);
      var second := GetOrPopulate(first.store, key, ttl, later, incoming');
      first.fetched && !second.fetched && second.value == incoming && second.store == first.store
  {
  }

  /** Once the time-to-live has elapsed, the next read consults the database
      again and serves what it yields now. */
  lemma ExpiredEntryRefetches<V>(s: Store<V>, key: string, ttl: nat, now: int, later: int, incoming: V, incoming': V)
    requires !Holds(s, key, now)
    requires later >= now + ttl
    ensures var first := GetOrPopulate(s, key, Some(ttl), now, incoming);
      var second := GetOrPopulate(first.store, key, Some(ttl), later, incoming');
      second.fetched && second.value == incoming'
  {
  }

  /** After a delete the next read of that key consults the database. */
  lemma DeleteForcesRefetch<V>(s: Store<V>, key: string, ttl: Option<nat>, now: int, incoming: V)
    ensures GetOrPopulate(Delete(s, key), key, ttl, now, incoming).fetched
    ensures GetOrPopulate(Delete(s, key), key, ttl, now, incoming).value == incoming
  {
  }
}

=== FILE: client.dfy ===
/** What the screens share: the signed-in user as the client holds it, the
    slice of a post the screens read, and the feedback a handler gives
    instead of sending a request. */
module Client {
  import opened Common

  /** The user object kept in the session; every field may be missing. */
  datatype ClientUser = ClientUser(id: Option<string>, username: Option<string>, name: Option<string>)

  /** `user?._id`. */
  function UserId(user: Option<ClientUser>): Option<string> {
    if user.Some? then user.value.id else None
  }

  /** `user?.username`. */
  function UsernameOf(user: Option<ClientUser>): Option<string> {
    if user.Some? then user.value.username else None
  }

  /** The field is present and truthy, as `if (!user?._id)` tests it. */
  predicate Present(o: Option<string>) {
    o.Some? && o.value != ""
  }

  /** A post as the screens receive it; lists the query did not return are
      missing. */
  datatype FeedPost = FeedPost(
    id: string,
    authorId: string,
    tags: Option<seq<string>>,
    likes: Option<seq<string>>,
    comments: Option<seq<string>>)

  /** A warning alert with a single OK button. */
  datatype Notice = Notice(title: string, message: string)

  /** What a form handler does: warn, send the request, or nothing. */
  datatype Handled<V> = Warn(notice: Notice) | Send(request: V) | Ignore

  datatype LikeRequest = LikeRequest(postId: string, username: string)

  /** `handleLike`, identical on the profile and detail screens: a truthy
      username is required before the like is sent. */
  function HandleLike(user: Option<ClientUser>, postId: string): (r: Handled<LikeRequest>)
    ensures r.Send? <==> Present(UsernameOf(user))
    ensures !Present(UsernameOf(user)) ==> r == Warn(Notice("Login Required", "Please login to like posts"))
    ensures r.Send? ==> r.request == LikeRequest(postId, UsernameOf(user).value)
  {
    if !Present(UsernameOf(user)) then Warn(Notice("Login Required", "Please login to like posts"))
    else Send(LikeRequest(postId, UsernameOf(user).value))
  }

  /** `post.likes?.some(l => l.username === user?.username)`: a missing
      list, or a missing username, never counts as liked. */
  predicate LikedBy(post: FeedPost, user: Option<ClientUser>) {
    post.likes.Some? && exists i :: 0 <= i < |post.likes.value| && Some(post.likes.value[i]) == UsernameOf(user)
  }

  /** `post.likes?.length || 0`. */
  function LikeCount(post: FeedPost): nat {
    if post.likes.Some? then |post.likes.value| else 0
  }

  /** `post.comments?.length || 0`. */
  function CommentCount(post: FeedPost): nat {
    if post.comments.Some? then |post.comments.value| else 0
  }

  /** A post is counted as liked only if there is a like to count, and only
      for a user with a username. */
  lemma LikedImpliesCounted(post: FeedPost, user: Option<ClientUser>)
    ensures LikedBy(post, user) ==> LikeCount(post) >= 1 && UsernameOf(user).Some?
  {
  }
}

=== FILE: common.dfy ===
/** Shared vocabulary of the model: optional values, results carrying the
    thrown message, and the JavaScript string primitives the program relies
    on: trim over the JavaScript white-space set, `.length` in UTF-16 code
    units, split, case folding (restricted to ASCII) and the default sort
    order. */
module Common {

  /** A JavaScript value that may be null or undefined. */
  datatype Option<+T> = None | Some(value: T) {
    function GetOr(default: T): T {
      match this
      case Some(v) => v
      case None => default
    }
  }

  /** A call that either returns a value or throws an Error with a message. */
  datatype Result<+T> = Ok(value: T) | Err(msg: string)

  /** A call that returns nothing useful or throws an Error with a message. */
  datatype Outcome = Pass | Fail(msg: string)

  /** A JavaScript string is truthy iff it is not empty. */
  predicate Truthy(s: string) {
    |s| > 0
  }

  /** The number of UTF-16 code units one character takes: two for a
      character outside the Basic Multilingual Plane, one otherwise. */
  function CodeUnits(c: char): nat {
    if c as int >= 0x1_0000 then 2 else 1
  }

  /** `s.length`: JavaScript counts UTF-16 code units, not characters. */
  function JsLength(s: string): (n: nat)
    ensures |s| <= n <= 2 * |s|
    ensures (forall i :: 0 <= i < |s| ==> s[i] as int < 0x1_0000) ==> n == |s|
  {
    if |s| == 0 then 0 else CodeUnits(s[0]) + JsLength(s[1..])
  }

  /** The length of a concatenation is the sum of the lengths. */
  lemma {:induction false} JsLengthAppend(a: string, b: string)
    ensures JsLength(a + b) == JsLength(a) + JsLength(b)
  {
    if |a| > 0 {
      assert (a + b)[0] == a[0] && (a + b)[1..] == a[1..] + b;
      JsLengthAppend(a[1..], b);
    } else {
      assert a + b == b;
    }
  }

  // ---------------------------------------------------------------------
  // Whitespace and trimming

  /** White space as `String.prototype.trim` and the regular expression
      class `\s` both see it: the ECMAScript WhiteSpace and LineTerminator
      characters (tab, line feed, vertical tab, form feed, carriage return,
      space, no-break space, the Unicode space separators, the line and
      paragraph separators, and the byte order mark). */
  predicate IsSpace(c: char) {
    || c == ' ' || (9 <= c as int <= 13)
    || c == '\U{00A0}' || c == '\U{1680}' || ('\U{2000}' <= c <= '\U{200A}')
    || c == '\U{2028}' || c == '\U{2029}' || c == '\U{202F}' || c == '\U{205F}'
    || c == '\U{3000}' || c == '\U{FEFF}'
  }

  predicate AllSpace(s: string) {
    forall i :: 0 <= i < |s| ==> IsSpace(s[i])
  }

  /** The first position at or after `i` that holds no white space, or
      the length when there is none. */
  function SkipSpaces(s: string, i: nat): (n: nat)
    requires i <= |s|
    ensures i <= n <= |s|
    ensures forall k :: i <= k < n ==> IsSpace(s[k])
    ensures n == |s| || !IsSpace(s[n])
    decreases |s| - i
  {
    if i < |s| && IsSpace(s[i]) then SkipSpaces(s, i + 1) else i
  }

  /** The end of `s[..j]` once its trailing white space is dropped. */
  function BackOverSpaces(s: string, j: nat): (n: nat)
    requires j <= |s|
    ensures n <= j
    ensures forall k :: n <= k < j ==> IsSpace(s[k])
    ensures n == 0 || !IsSpace(s[n - 1])
  {
    if j > 0 && IsSpace(s[j - 1]) then BackOverSpaces(s, j - 1) else j
  }

  /** `s.trim()`: the window of `s` that starts at its first non-space
      character and ends after its last one. Only white space lies outside
      the window, and the window neither starts nor ends with white space. */
  function Trim(s: string): (r: string)
    ensures SkipSpaces(s, 0) + |r| <= |s|
    ensures r == s[SkipSpaces(s, 0)..SkipSpaces(s, 0) + |r|]
    ensures forall k :: 0 <= k < SkipSpaces(s, 0) ==> IsSpace(s[k])
    ensures forall k :: SkipSpaces(s, 0) + |r| <= k < |s| ==> IsSpace(s[k])
    ensures r == [] || (!IsSpace(r[0]) && !IsSpace(r[|r| - 1]))
  {
    var i := SkipSpaces(s, 0);
    var j := BackOverSpaces(s, |s|);
    if j <= i then [] else s[i..j]
  }

  /** `!s.trim()`: the string trims to the empty string. */
  predicate Blank(s: string) {
    Trim(s) == []
  }

  /** A string is blank exactly when every character of it is white space. */
  lemma BlankIffAllSpace(s: string)
    ensures Blank(s) <==> AllSpace(s)
  {
    if AllSpace(s) {
      assert SkipSpaces(s, 0) == |s|;
    }
  }

  /** Trimming twice is trimming once. */
  lemma TrimIdempotent(s: string)
    ensures Trim(Trim(s)) == Trim(s)
  {
    var r := Trim(s);
    if r != [] {
      assert SkipSpaces(r, 0) == 0;
      assert BackOverSpaces(r, |r|) == |r|;
      assert r[0..|r|] == r;
    }
  }

  // ---------------------------------------------------------------------
  // Case folding

  /** `toLowerCase` on one ASCII character. */
  function LowerChar(c: char): char {
    if 'A' <= c <= 'Z' then (c as int + 32) as char else c
  }

  /** `toUpperCase` on one ASCII character. */
  function UpperChar(c: char): char {
    if 'a' <= c <= 'z' then (c as int - 32) as char else c
  }

  function Lower(s: string): (r: string)
    ensures |r| == |s|
  {
    seq(|s|, i requires 0 <= i < |s| => LowerChar(s[i]))
  }

  /** `a.toLowerCase() === b.toLowerCase()`. */
  predicate SameIgnoringCase(a: string, b: string) {
    Lower(a) == Lower(b)
  }

  // ---------------------------------------------------------------------
  // Splitting and joining

  /** `s.split(sep)` for a one-character separator: every separator ends one
      piece, so the result always has at least one (possibly empty) piece. */
  function Split(s: string, sep: char): (r: seq<string>)
    ensures |r| >= 1
    ensures forall i :: 0 <= i < |r| ==> sep !in r[i]
    decreases |s|
  {
    if |s| == 0 then [[]]
    else
      var rest := Split(s[1..], sep);
      if s[0] == sep then [[]] + rest
      else [[s[0]] + rest[0]] + rest[1..]
  }

  /** A string with no separator is a single piece. */
  lemma {:induction false} SplitWithoutSeparator(s: string, sep: char)
    requires sep !in s
    ensures Split(s, sep) == [s]
    decreases |s|
  {
    if |s| > 0 {
      SplitWithoutSeparator(s[1..], sep);
      assert [s[0]] + s[1..] == s;
    }
  }

  /** Splitting at one separator splits the pieces at that point. */
  lemma {:induction false} SplitAtSeparator(a: string, b: string, sep: char)
    ensures Split(a + [sep] + b, sep) == Split(a, sep) + Split(b, sep)
    decreases |a|
  {
    if |a| == 0 {
      assert a + [sep] + b == [sep] + b;
      assert ([sep] + b)[1..] == b;
    } else {
      var w := a + [sep] + b;
      assert w[0] == a[0] && w[1..] == a[1..] + [sep] + b;
      SplitAtSeparator(a[1..], b, sep);
      var front := Split(a[1..], sep);
      var back := Split(b, sep);
      assert Split(w[1..], sep) == front + back;
      if a[0] != sep {
        assert (front + back)[0] == front[0];
        assert (front + back)[1..] == front[1..] + back;
      }
    }
  }

  /** `parts.join(sep)`. */
  function Join(parts: seq<string>, sep: char): string
    requires |parts| >= 1
    decreases |parts|
  {
    if |parts| == 1 then parts[0] else parts[0] + [sep] + Join(parts[1..], sep)
  }

  /** Joining the pieces of a split with the same separator gives back the
      original string. */
  lemma {:induction false} JoinSplit(s: string, sep: char)
    ensures Join(Split(s, sep), sep) == s
    decreases |s|
  {
    if |s| > 0 {
      var rest := Split(s[1..], sep);
      JoinSplit(s[1..], sep);
      if s[0] == sep {
        assert [s[0]] + s[1..] == s;
      } else {
        var r := Split(s, sep);
        assert r == [[s[0]] + rest[0]] + rest[1..];
        if |rest| == 1 {
          assert s == [s[0]] + s[1..];
        } else {
          assert r[1..] == rest[1..];
          assert Join(rest, sep) == rest[0] + [sep] + Join(rest[1..], sep);
          assert s == [s[0]] + s[1..];
        }
      }
    }
  }

  /** Splitting a join of separator-free pieces gives back the pieces. */
  lemma {:induction false} SplitJoin(parts: seq<string>, sep: char)
    requires |parts| >= 1
    requires forall i :: 0 <= i < |parts| ==> sep !in parts[i]
    ensures Split(Join(parts, sep), sep) == parts
    decreases |parts|, |parts[0]|
  {
    var p := parts[0];
    if |parts| == 1 {
      if |p| > 0 {
        SplitJoin([p[1..]], sep);
        assert p == [p[0]] + p[1..];
      }
    } else {
      var j := Join(parts, sep);
      var tail := Join(parts[1..], sep);
      if |p| == 0 {
        assert j == [sep] + tail;
        assert j[1..] == tail;
        SplitJoin(parts[1..], sep);
        assert parts == [[]] + parts[1..];
      } else {
        var parts' := [p[1..]] + parts[1..];
        assert parts'[1..] == parts[1..];
        assert Join(parts', sep) == p[1..] + [sep] + tail;
        assert j == [p[0]] + Join(parts', sep);
        assert j[1..] == Join(parts', sep);
        SplitJoin(parts', sep);
        assert p == [p[0]] + p[1..];
        assert parts == [[p[0]] + parts'[0]] + parts'[1..];
      }
    }
  }

  // ---------------------------------------------------------------------
  // Filtering

  /** `xs.filter(keep)`. */
  function Filter<T>(xs: seq<T>, keep: T -> bool): (r: seq<T>)
    ensures |r| <= |xs|
    ensures forall i :: 0 <= i < |r| ==> keep(r[i]) && r[i] in xs
    ensures forall x :: x in xs && keep(x) ==> x in r
  {
    if |xs| == 0 then []
    else if keep(xs[0]) then [xs[0]] + Filter(xs[1..], keep)
    else Filter(xs[1..], keep)
  }

  /** `a` occurs in `b` in the same order, possibly with gaps. */
  predicate IsSubsequence<T(==)>(a: seq<T>, b: seq<T>)
    decreases |b|
  {
    if |a| == 0 then true
    else if |b| == 0 then false
    else if a[0] == b[0] then IsSubsequence(a[1..], b[1..])
    else IsSubsequence(a, b[1..])
  }

  /** A filter keeps the relative order of what it keeps. */
  lemma {:induction false} FilterIsSubsequence<T>(xs: seq<T>, keep: T -> bool)
    ensures IsSubsequence(Filter(xs, keep), xs)
  {
    if |xs| > 0 {
      FilterIsSubsequence(xs[1..], keep);
      var rest := Filter(xs[1..], keep);
      if !keep(xs[0]) {
        SubsequenceOfTail(rest, xs);
      }
    }
  }

  lemma {:induction false} SubsequenceOfTail<T>(a: seq<T>, b: seq<T>)
    requires |b| > 0 && IsSubsequence(a, b[1..])
    ensures IsSubsequence(a, b)
    decreases |b|, |a|
  {
    if |a| > 0 && a[0] == b[0] {
      SubsequenceDropHead(a, b[1..]);
    }
  }

  lemma {:induction false} SubsequenceDropHead<T>(a: seq<T>, b: seq<T>)
    requires |a| > 0 && IsSubsequence(a, b)
    ensures IsSubsequence(a[1..], b)
    decreases |b|, |a|
  {
    if a[0] == b[0] {
      if |a| > 1 {
        SubsequenceOfTail(a[1..], b);
      }
    } else {
      SubsequenceDropHead(a, b[1..]);
      if |a| > 1 {
        SubsequenceOfTail(a[1..], b);
      }
    }
  }

  /** A filter that keeps everything is the identity. */
  lemma {:induction false} FilterAll<T>(xs: seq<T>, keep: T -> bool)
    requires forall x :: x in xs ==> keep(x)
    ensures Filter(xs, keep) == xs
  {
    if |xs| > 0 {
      FilterAll(xs[1..], keep);
      assert xs == [xs[0]] + xs[1..];
    }
  }

  /** A filter that keeps nothing yields nothing. */
  lemma {:induction false} FilterNone<T>(xs: seq<T>, keep: T -> bool)
    requires forall i :: 0 <= i < |xs| ==> !keep(xs[i])
    ensures Filter(xs, keep) == []
  {
    if |xs| > 0 {
      FilterNone(xs[1..], keep);
    }
  }

  /** Filtering distributes over concatenation. */
  lemma {:induction false} FilterAppend<T>(a: seq<T>, b: seq<T>, keep: T -> bool)
    ensures Filter(a + b, keep) == Filter(a, keep) + Filter(b, keep)
  {
    if |a| > 0 {
      FilterAppend(a[1..], b, keep);
      assert (a + b)[1..] == a[1..] + b;
    } else {
      assert a + b == b;
    }
  }

  /** The number of elements satisfying `keep`. */
  function Count<T>(xs: seq<T>, keep: T -> bool): nat {
    |Filter(xs, keep)|
  }

  /** A filter keeps every copy of what it keeps: each kept element occurs
      as often as in the input, every other element not at all. */
  lemma {:induction false} FilterMultiplicity<T>(xs: seq<T>, keep: T -> bool)
    ensures forall x :: multiset(Filter(xs, keep))[x] == if keep(x) then multiset(xs)[x] else 0
  {
    if |xs| > 0 {
      FilterMultiplicity(xs[1..], keep);
      assert xs == [xs[0]] + xs[1..];
      assert multiset(xs) == multiset{xs[0]} + multiset(xs[1..]);
      if keep(xs[0]) {
        assert Filter(xs, keep) == [xs[0]] + Filter(xs[1..], keep);
        assert multiset(Filter(xs, keep)) == multiset{xs[0]} + multiset(Filter(xs[1..], keep));
      }
    }
  }

  /** A predicate and its negation split the elements between them. */
  lemma {:induction false} FilterSplitsCount<T>(xs: seq<T>, keep: T -> bool, drop: T -> bool)
    requires forall x :: drop(x) == !keep(x)
    ensures Count(xs, keep) + Count(xs, drop) == |xs|
  {
    if |xs| > 0 {
      FilterSplitsCount(xs[1..], keep, drop);
    }
  }

  /** `xs.find(p)`: the first element satisfying `p`, if any. */
  function First<T>(xs: seq<T>, p: T -> bool): (r: Option<T>)
    ensures r.Some? ==> r.value in xs && p(r.value)
    ensures r.Some? ==> exists i :: 0 <= i < |xs| && xs[i] == r.value && forall j :: 0 <= j < i ==> !p(xs[j])
    ensures r.None? <==> forall x :: x in xs ==> !p(x)
  {
    if |xs| == 0 then None
    else if p(xs[0]) then Some(xs[0])
    else First(xs[1..], p)
  }

  /** `xs.map(f)`. */
  function Map<T, U>(xs: seq<T>, f: T -> U): (r: seq<U>)
    ensures |r| == |xs|
    ensures forall i :: 0 <= i < |xs| ==> r[i] == f(xs[i])
  {
    seq(|xs|, i requires 0 <= i < |xs| => f(xs[i]))
  }

  /** Mapping distributes over concatenation. */
  lemma MapAppend<T, U>(a: seq<T>, b: seq<T>, f: T -> U)
    ensures Map(a + b, f) == Map(a, f) + Map(b, f)
  {
    assert forall i :: 0 <= i < |a| + |b| ==> (a + b)[i] == if i < |a| then a[i] else b[i - |a|];
  }

  /** `s.indexOf(c)` as an option: the position of the first `c`. */
  function IndexOf(s: string, c: char): (r: Option<nat>)
    ensures r.Some? ==> r.value < |s| && s[r.value] == c && c !in s[..r.value]
    ensures r.None? ==> c !in s
  {
    if |s| == 0 then None
    else if s[0] == c then Some(0)
    else match IndexOf(s[1..], c)
      case None => None
      case Some(i) => assert s[..i + 1] == [s[0]] + s[1..][..i]; Some(i + 1)
  }

  // ---------------------------------------------------------------------
  // Default sort order

  /** The order of JavaScript's default `sort` on strings: lexicographic by
      character code, a proper prefix sorting first. */
  predicate LexLess(a: string, b: string)
    decreases |a|
  {
    |b| > 0 && (|a| == 0 || a[0] < b[0] || (a[0] == b[0] && LexLess(a[1..], b[1..])))
  }

  lemma {:induction false} LexIrreflexive(a: string)
    ensures !LexLess(a, a)
    decreases |a|
  {
    if |a| > 0 {
      LexIrreflexive(a[1..]);
    }
  }

  lemma {:induction false} LexTransitive(a: string, b: string, c: string)
    requires LexLess(a, b) && LexLess(b, c)
    ensures LexLess(a, c)
    decreases |a|
  {
    if |a| > 0 && a[0] == b[0] && b[0] == c[0] {
      LexTransitive(a[1..], b[1..], c[1..]);
    }
  }

  lemma {:induction false} LexTotal(a: string, b: string)
    ensures a == b || LexLess(a, b) || LexLess(b, a)
    decreases |a|
  {
    if |a| > 0 && |b| > 0 && a[0] == b[0] {
      LexTotal(a[1..], b[1..]);
      if a[1..] == b[1..] {
        assert a == [a[0]] + a[1..] && b == [b[0]] + b[1..];
      }
    }
  }
}

=== FILE: follow_schema.dfy ===
/** The follow resolvers. `follow` refuses a pair that is already stored,
    so the resolvers keep the relation free of duplicate pairs even though
    the collection itself would accept them. */
module FollowSchema {
  import opened Common
  import Follows
  import Users

  datatype Server = Server(follows: Follows.Relation, users: Users.Users)

  /** The followed user's record, `null` when there is none, with its
      recomputed subscriber count. */
  datatype Subscribed = Subscribed(record: Option<Users.User>, followers: nat)

  datatype FollowResponse = FollowResponse(success: bool, message: string, user: Option<Subscribed>)

  datatype Reply = Reply(result: Result<FollowResponse>, server: Server)

  /** Every (followed, follower) pair is stored at most once. */
  predicate NoDuplicatePairs(rel: Follows.Relation) {
    forall p :: p in Follows.Pairs(rel) ==> Follows.Pairs(rel)[p] <= 1
  }

  function SubscribedTo(s: Server, followingId: string): Subscribed {
    Subscribed(Users.FindById(s.users, followingId), Users.SubscriberCount(s.follows, followingId))
  }

  /** `getUserFollows(userId)`: the records in which `userId` is the
      follower, in collection order. */
  function GetUserFollows(s: Server, auth: Outcome, userId: string): (r: Result<seq<Follows.Follow>>)
    ensures auth.Fail? ==> r == Err(auth.msg)
    ensures auth.Pass? ==> r.Ok?
    ensures r.Ok? ==> forall f :: f in r.value <==> f in s.follows && f.followerId == userId
    ensures r.Ok? ==> IsSubsequence(r.value, s.follows)
    ensures r.Ok? ==> forall f :: multiset(r.value)[f] == if f.followerId == userId then multiset(s.follows)[f] else 0
  {
    match auth
    case Fail(m) => Err(m)
    case Pass => Ok(Follows.Find(s.follows, Follows.Query(None, Some(userId))))
  }

  /** `follow`: an existing pair is answered "Already following this user"
      and nothing is stored; otherwise the record is created and the
      followed user is answered with the count after the insertion. There
      is no check that a user does not follow themselves. */
  function FollowUser(s: Server, auth: Outcome, followingId: string, followerId: string, newId: string, now: int): (r: Reply)
    ensures auth.Fail? ==> r == Reply(Err(auth.msg), s)
    ensures auth.Pass? && Follows.CheckFollowing(s.follows, followingId, followerId) ==>
      r == Reply(Ok(FollowResponse(false, "Already following this user", None)), s)
    ensures (auth.Pass? && !Follows.CheckFollowing(s.follows, followingId, followerId)
      && Follows.Create(s.follows, followingId, followerId, newId, now).Err?) ==>
      r == Reply(Err(Follows.Create(s.follows, followingId, followerId, newId, now).msg), s)
    ensures r.result.Ok? && r.result.value.success ==>
      && r.server.follows == s.follows + [Follows.Follow(newId, followingId, followerId, now, now)]
      && r.server.users == s.users
      && r.result.value == FollowResponse(true, "Following user successfully", Some(SubscribedTo(r.server, followingId)))
      && r.result.value.user.value.followers == Users.SubscriberCount(s.follows, followingId) + 1
    ensures r.result.Ok? && r.result.value.success <==>
      auth.Pass? && !Follows.CheckFollowing(s.follows, followingId, followerId) && followingId != "" && followerId != ""
    ensures NoDuplicatePairs(s.follows) ==> NoDuplicatePairs(r.server.follows)
  {
    match auth
    case Fail(m) => Reply(Err(m), s)
    case Pass =>
      if Follows.CheckFollowing(s.follows, followingId, followerId) then
        Reply(Ok(FollowResponse(false, "Already following this user", None)), s)
      else match Follows.Create(s.follows, followingId, followerId, newId, now)
        case Err(m) => Reply(Err(m), s)
        case Ok(c) =>
          var s' := s.(follows := c.relation);
          Users.CountAfterCreate(s.follows, c.follow, followingId);
          Follows.PairsAppend(s.follows, [c.follow]);
          Follows.CheckFollowingIffInPairs(s.follows, followingId, followerId);
          assert Follows.Pairs([c.follow]) == multiset{(followingId, followerId)} by {
            assert Follows.PairList([c.follow]) == [(followingId, followerId)];
          }
          Reply(Ok(FollowResponse(true, "Following user successfully", Some(SubscribedTo(s', followingId)))), s')
  }

  /** `unfollow`: when no record for the pair is removed the answer is "Not
      following this user"; otherwise one record is removed and the followed
      user is answered with the count after the removal. */
  function Unfollow(s: Server, auth: Outcome, followingId: string, followerId: string): (r: Reply)
    ensures auth.Fail? ==> r == Reply(Err(auth.msg), s)
    ensures auth.Pass? && !Follows.CheckFollowing(s.follows, followingId, followerId) ==>
      r == Reply(Ok(FollowResponse(false, "Not following this user", None)), s)
    ensures auth.Pass? && Follows.CheckFollowing(s.follows, followingId, followerId) ==>
      && r.server == s.(follows := Follows.DeleteFollow(s.follows, followingId, followerId).relation)
      && r.result == Ok(FollowResponse(true, "Unfollowed user successfully", Some(SubscribedTo(r.server, followingId))))
      && r.result.value.user.value.followers + 1 == Users.SubscriberCount(s.follows, followingId)
    ensures NoDuplicatePairs(s.follows) ==> NoDuplicatePairs(r.server.follows)
    ensures auth.Pass? && NoDuplicatePairs(s.follows) ==> !Follows.CheckFollowing(r.server.follows, followingId, followerId)
  {
    match auth
    case Fail(m) => Reply(Err(m), s)
    case Pass =>
      var d := Follows.DeleteFollow(s.follows, followingId, followerId);
      DeleteKeepsNoDuplicates(s.follows, followingId, followerId);
      if !d.removed then
        Reply(Ok(FollowResponse(false, "Not following this user", None)), s)
      else
        var i := Follows.FirstMatch(s.follows, followingId, followerId).value;
        Users.CountAfterRemoval(s.follows, i, followingId);
        var s' := s.(follows := d.relation);
        Reply(Ok(FollowResponse(true, "Unfollowed user successfully", Some(SubscribedTo(s', followingId)))), s')
  }

  /** Removing a record never creates a duplicate, and on a relation
      without duplicates it leaves the pair unfollowed. */
  lemma DeleteKeepsNoDuplicates(rel: Follows.Relation, followingId: string, followerId: string)
    ensures var after := Follows.DeleteFollow(rel, followingId, followerId).relation;
      && (NoDuplicatePairs(rel) ==> NoDuplicatePairs(after))
      && (NoDuplicatePairs(rel) ==> !Follows.CheckFollowing(after, followingId, followerId))
  {
    var d := Follows.DeleteFollow(rel, followingId, followerId);
    Follows.CheckFollowingIffInPairs(rel, followingId, followerId);
    Follows.CheckFollowingIffInPairs(d.relation, followingId, followerId);
    if d.removed {
      assert forall p :: Follows.Pairs(d.relation)[p] <= Follows.Pairs(rel)[p];
    }
  }

  /** Following a pair that was not followed and then unfollowing it gives
      back exactly the relation there was before. */
  lemma FollowThenUnfollowRestores(s: Server, followingId: string, followerId: string, newId: string, now: int)
    requires followingId != "" && followerId != ""
    requires !Follows.CheckFollowing(s.follows, followingId, followerId)
    ensures var s' := FollowUser(s, Pass, followingId, followerId, newId, now).server;
      s' != s && Unfollow(s', Pass, followingId, followerId).server == s
  {
    var rel := s.follows;
    var rel' := FollowUser(s, Pass, followingId, followerId, newId, now).server.follows;
    assert rel' == rel + [rel'[|rel|]];
    assert Follows.FirstMatch(rel', followingId, followerId) == Some(|rel|) by {
      assert Follows.IsPair(rel'[|rel|], followingId, followerId);
      assert forall j :: 0 <= j < |rel| ==> rel'[j] == rel[j];
    }
    assert rel'[..|rel|] + rel'[|rel| + 1..] == rel;
  }

  /** A user may follow themselves: the resolver accepts the pair. */
  lemma SelfFollowAccepted(s: Server, u: string, newId: string, now: int)
    requires u != "" && !Follows.CheckFollowing(s.follows, u, u)
    ensures FollowUser(s, Pass, u, u, newId, now).result == Ok(FollowResponse(true, "Following user successfully",
      Some(SubscribedTo(FollowUser(s, Pass, u, u, newId, now).server, u))))
  {
  }
}

=== FILE: follows.dfy ===
/** The `follows` collection: one record per (followed user, follower)
    pair, kept in insertion order. The collection itself is a bag: nothing
    here stops the same pair from being stored twice. */
module Follows {
  import opened Common

  datatype Follow = Follow(id: string, followingId: string, followerId: string, createdAt: int, updatedAt: int)

  type Relation = seq<Follow>

  predicate IsPair(f: Follow, followingId: string, followerId: string) {
    f.followingId == followingId && f.followerId == followerId
  }

  /** The relation seen as a bag of (followingId, followerId) pairs. */
  function Pairs(rel: Relation): multiset<(string, string)> {
    multiset(PairList(rel))
  }

  function PairList(rel: Relation): (r: seq<(string, string)>)
    ensures |r| == |rel|
  {
    seq(|rel|, i requires 0 <= i < |rel| => (rel[i].followingId, rel[i].followerId))
  }

  datatype Created = Created(follow: Follow, relation: Relation)

  /** `Follow.create`: both ids are required (the followed id is checked
      first); the record is then inserted whether or not the pair is already
      present. `newId` is the id the database assigns. */
  function Create(rel: Relation, followingId: string, followerId: string, newId: string, now: int): (r: Result<Created>)
    ensures followingId == "" ==> r == Err("Following ID is required")
    ensures followingId != "" && followerId == "" ==> r == Err("Follower ID is required")
    ensures r.Ok? <==> followingId != "" && followerId != ""
    ensures r.Ok? ==> IsPair(r.value.follow, followingId, followerId) && r.value.follow.id == newId
    ensures r.Ok? ==> r.value.relation == rel + [r.value.follow]
  {
    if followingId == "" then Err("Following ID is required")
    else if followerId == "" then Err("Follower ID is required")
    else
      var f := Follow(newId, followingId, followerId, now, now);
      Ok(Created(f, rel + [f]))
  }

  /** Index of the first record for the pair, as `findOne`/`deleteOne` pick it. */
  function FirstMatch(rel: Relation, followingId: string, followerId: string): (r: Option<nat>)
    ensures r.Some? ==> r.value < |rel| && IsPair(rel[r.value], followingId, followerId)
    ensures r.Some? ==> forall j :: 0 <= j < r.value ==> !IsPair(rel[j], followingId, followerId)
    ensures r.None? ==> forall j :: 0 <= j < |rel| ==> !IsPair(rel[j], followingId, followerId)
  {
    if |rel| == 0 then None
    else if IsPair(rel[0], followingId, followerId) then Some(0)
    else match FirstMatch(rel[1..], followingId, followerId)
      case None => None
      case Some(i) => Some(i + 1)
  }

  /** `Follow.checkFollowing`: true iff some record holds exactly this pair. */
  function CheckFollowing(rel: Relation, followingId: string, followerId: string): (r: bool)
    ensures r <==> exists i :: 0 <= i < |rel| && IsPair(rel[i], followingId, followerId)
  {
    FirstMatch(rel, followingId, followerId).Some?
  }

  datatype Removal = Removal(removed: bool, relation: Relation)

  /** `Follow.deleteFollow`: removes the first record for the pair, if any,
      and reports whether one was removed. */
  function DeleteFollow(rel: Relation, followingId: string, followerId: string): (r: Removal)
    ensures r.removed <==> CheckFollowing(rel, followingId, followerId)
    ensures !r.removed ==> r.relation == rel
    ensures r.removed ==> |r.relation| == |rel| - 1
    ensures r.removed ==> Pairs(r.relation) + multiset{(followingId, followerId)} == Pairs(rel)
  {
    match FirstMatch(rel, followingId, followerId)
    case None => Removal(false, rel)
    case Some(i) =>
      PairsSplit(rel, i);
      Removal(true, rel[..i] + rel[i + 1..])
  }

  lemma PairsAppend(a: Relation, b: Relation)
    ensures Pairs(a + b) == Pairs(a) + Pairs(b)
  {
    assert PairList(a + b) == PairList(a) + PairList(b);
  }

  lemma PairsSplit(rel: Relation, i: nat)
    requires i < |rel|
    ensures Pairs(rel) == Pairs(rel[..i] + rel[i + 1..]) + multiset{(rel[i].followingId, rel[i].followerId)}
  {
    assert rel == rel[..i] + ([rel[i]] + rel[i + 1..]);
    PairsAppend(rel[..i], [rel[i]] + rel[i + 1..]);
    PairsAppend([rel[i]], rel[i + 1..]);
    PairsAppend(rel[..i], rel[i + 1..]);
    assert PairList([rel[i]]) == [(rel[i].followingId, rel[i].followerId)];
  }

  /** A pair is followed exactly when it is in the bag of pairs. */
  lemma CheckFollowingIffInPairs(rel: Relation, followingId: string, followerId: string)
    ensures CheckFollowing(rel, followingId, followerId) <==> (followingId, followerId) in Pairs(rel)
  {
    var pl := PairList(rel);
    if CheckFollowing(rel, followingId, followerId) {
      var i :| 0 <= i < |rel| && IsPair(rel[i], followingId, followerId);
      assert pl[i] == (followingId, followerId);
    }
    if (followingId, followerId) in Pairs(rel) {
      var i :| 0 <= i < |pl| && pl[i] == (followingId, followerId);
      assert IsPair(rel[i], followingId, followerId);
    }
  }

  /** Which records a `find` filter selects; an absent field selects all. */
  datatype Query = Query(followingId: Option<string>, followerId: Option<string>)

  /** `Follow.find()` with no argument. */
  const Everything := Query(None, None)

  predicate Selects(q: Query, f: Follow) {
    (q.followingId.None? || f.followingId == q.followingId.value)
    && (q.followerId.None? || f.followerId == q.followerId.value)
  }

  /** `Follow.find(filter)`: the matching records in collection order. */
  function Find(rel: Relation, q: Query): (r: seq<Follow>)
    ensures forall f :: f in r <==> f in rel && Selects(q, f)
    ensures IsSubsequence(r, rel)
    ensures forall f :: multiset(r)[f] == if Selects(q, f) then multiset(rel)[f] else 0
  {
    FilterIsSubsequence(rel, f => Selects(q, f));
    FilterMultiplicity(rel, f => Selects(q, f));
    Filter(rel, f => Selects(q, f))
  }

  /** The default filter returns the whole collection. */
  lemma FindEverything(rel: Relation)
    ensures Find(rel, Everything) == rel
  {
    FilterAll(rel, f => Selects(Everything, f));
  }

  /** The collection on its own admits duplicate pairs: inserting a pair
      that is already present succeeds and stores it twice. */
  lemma CreateAdmitsDuplicates(rel: Relation, followingId: string, followerId: string, newId: string, now: int)
    requires followingId != "" && followerId != ""
    requires CheckFollowing(rel, followingId, followerId)
    ensures Create(rel, followingId, followerId, newId, now).Ok?
    ensures var rel' := Create(rel, followingId, followerId, newId, now).value.relation;
      Pairs(rel')[(followingId, followerId)] >= 2
  {
    var i :| 0 <= i < |rel| && IsPair(rel[i], followingId, followerId);
    var rel' := Create(rel, followingId, followerId, newId, now).value.relation;
    PairsSplit(rel', i);
    assert rel' == rel + [rel'[|rel|]];
    var rest := rel'[..i] + rel'[i + 1..];
    assert rest[|rest| - 1] == rel'[|rel|];
    PairsSplit(rest, |rest| - 1);
  }
}

=== FILE: home.dfy ===
/** The feed screen's pure helpers: filtering by a main tag and an optional
    related tag (case-insensitively), the sorted list of distinct tags, and
    the related-tag chip toggle. */
module Home {
  import opened Common
  import opened Client

  /** `post.tags?.some(t => t.toLowerCase() === tag.toLowerCase())`: a post
      without tags matches nothing. */
  predicate HasTag(post: FeedPost, tag: string) {
    post.tags.Some? && exists i :: 0 <= i < |post.tags.value| && SameIgnoringCase(post.tags.value[i], tag)
  }

  /** The main filter is off at "All"; the related filter is off when no
      related tag (or an empty one) is selected. */
  predicate Shows(post: FeedPost, selectedTag: string, related: Option<string>) {
    (selectedTag == "All" || HasTag(post, selectedTag))
    && (!(related.Some? && Truthy(related.value)) || HasTag(post, related.value))
  }

  /** `filteredPosts`. */
  function FilteredPosts(posts: seq<FeedPost>, selectedTag: string, related: Option<string>): (r: seq<FeedPost>)
    ensures forall p :: p in r <==> p in posts && Shows(p, selectedTag, related)
    ensures IsSubsequence(r, posts)
    ensures forall p :: multiset(r)[p] == if Shows(p, selectedTag, related) then multiset(posts)[p] else 0
  {
    FilterIsSubsequence(posts, p => Shows(p, selectedTag, related));
    FilterMultiplicity(posts, p => Shows(p, selectedTag, related));
    Filter(posts, p => Shows(p, selectedTag, related))
  }

  /** With "All" and no related tag every post is shown, in order. */
  lemma AllShowsEverything(posts: seq<FeedPost>)
    ensures FilteredPosts(posts, "All", None) == posts
  {
    FilterAll(posts, p => Shows(p, "All", None));
  }

  /** Under any active filter a post without tags is hidden. */
  lemma UntaggedHiddenByActiveFilter(post: FeedPost, selectedTag: string, related: Option<string>)
    requires post.tags.None?
    requires selectedTag != "All" || (related.Some? && Truthy(related.value))
    ensures !Shows(post, selectedTag, related)
  {
  }

  // ---------------------------------------------------------------------
  // The tag list

  /** Strictly increasing in the default string order, hence duplicate-free. */
  predicate StrictlySorted(s: seq<string>) {
    forall i, j :: 0 <= i < j < |s| ==> LexLess(s[i], s[j])
  }

  /** Inserts a tag into a strictly sorted list unless it is already there. */
  function InsertTag(t: string, s: seq<string>): (r: seq<string>)
    requires StrictlySorted(s)
    ensures StrictlySorted(r)
    ensures forall x :: x in r <==> x == t || x in s
  {
    if |s| == 0 then [t]
    else if t == s[0] then s
    else if LexLess(t, s[0]) then
      assert forall j :: 0 < j < |s| ==> LexLess(t, s[j]) by {
        forall j | 0 < j < |s| ensures LexLess(t, s[j]) {
          LexTransitive(t, s[0], s[j]);
        }
      }
      [t] + s
    else
      LexTotal(t, s[0]);
      var rest := InsertTag(t, s[1..]);
      assert forall x :: x in s[1..] ==> LexLess(s[0], x) by {
        forall x | x in s[1..] ensures LexLess(s[0], x) {
          var k :| 0 <= k < |s[1..]| && s[1..][k] == x;
          assert s[k + 1] == x;
        }
      }
      assert forall x :: x in s <==> x == s[0] || x in s[1..] by {
        assert s == [s[0]] + s[1..];
      }
      assert forall j :: 0 <= j < |rest| ==> rest[j] in rest;
      [s[0]] + rest
  }

  /** Every tag of every post, in order of appearance. */
  function TagsOf(posts: seq<FeedPost>): (r: seq<string>)
    ensures forall t :: t in r <==> exists p :: p in posts && p.tags.Some? && t in p.tags.value
  {
    if |posts| == 0 then []
    else
      var rest := TagsOf(posts[1..]);
      assert forall p :: p in posts <==> p == posts[0] || p in posts[1..] by {
        assert posts == [posts[0]] + posts[1..];
      }
      (if posts[0].tags.Some? then posts[0].tags.value else []) + rest
  }

  /** The distinct elements of `xs`, sorted. */
  function SortedDistinct(xs: seq<string>): (r: seq<string>)
    ensures StrictlySorted(r)
    ensures forall x :: x in r <==> x in xs
  {
    if |xs| == 0 then []
    else
      assert forall x :: x in xs <==> x == xs[0] || x in xs[1..] by {
        assert xs == [xs[0]] + xs[1..];
      }
      InsertTag(xs[0], SortedDistinct(xs[1..]))
  }

  /** `getAllTags`: the tags found on some post, each once, in the default
      sort order (exact-case: "React" and "react" are both kept). */
  function AllTags(posts: seq<FeedPost>): (r: seq<string>)
    ensures StrictlySorted(r)
    ensures forall t :: t in r <==> exists p :: p in posts && p.tags.Some? && t in p.tags.value
  {
    SortedDistinct(TagsOf(posts))
  }

  /** A strictly sorted list holds no tag twice. */
  lemma SortedHasNoDuplicates(s: seq<string>)
    requires StrictlySorted(s)
    ensures forall i, j :: 0 <= i < j < |s| ==> s[i] != s[j]
  {
    forall i, j | 0 <= i < j < |s| ensures s[i] != s[j] {
      LexIrreflexive(s[i]);
    }
  }

  // ---------------------------------------------------------------------
  // The related-tag chips

  /** Pressing a chip selects it, or clears the selection if it was the
      selected one. */
  function PressRelatedTag(selected: Option<string>, tag: string): (r: Option<string>)
    ensures r.None? <==> selected == Some(tag)
    ensures r.Some? ==> r.value == tag
  {
    if selected == Some(tag) then None else Some(tag)
  }

  /** Pressing the same chip twice from no selection ends with no selection;
      from that chip's selection, it ends selected again. */
  lemma PressTwice(selected: Option<string>, tag: string)
    requires selected.None? || selected == Some(tag)
    ensures PressRelatedTag(PressRelatedTag(selected, tag), tag) == selected
  {
  }
}

=== FILE: login_screen.dfy ===
/** The login form and what happens when the login mutation answers. The
    token is written twice: to the secure store, from which the request
    link builds the Authorization header, and through `signIn` to the
    session's storage. Signing out clears only the latter. */
module LoginScreen {
  import opened Common
  import opened Client
  import Session
  import AuthHeader
  import Users

  datatype Credentials = Credentials(username: string, password: string)

  const Incomplete := Notice("Data Belum Lengkap", "Isi username dan password")
  const NoToken := Notice("Login Gagal", "Token tidak ditemukan")

  /** `handleLogin`: both fields must be non-blank; the username is sent
      trimmed and the password exactly as typed. */
  function HandleLogin(username: string, password: string): (r: Handled<Credentials>)
    ensures r.Send? <==> !Blank(username) && !Blank(password)
    ensures !r.Send? ==> r == Warn(Incomplete)
    ensures r.Send? ==> r.request == Credentials(Trim(username), password)
  {
    if Blank(username) || Blank(password) then Warn(Incomplete)
    else Send(Credentials(Trim(username), password))
  }

  /** The device: the session, its storage, and the secure store's token. */
  datatype Device = Device(session: Session.State, stored: Session.Stored, secure: Option<string>)

  /** The Authorization header the request link attaches. */
  function Header(d: Device): string {
    if d.secure.Some? && Truthy(d.secure.value) then "Bearer " + d.secure.value else ""
  }

  /** The login mutation's answer. */
  datatype LoginData = LoginData(token: Option<string>, user: Option<ClientUser>)

  /** `onCompleted`: without a truthy token an error is shown and nothing
      changes; otherwise the token goes to the secure store and then the
      session is signed in with it. */
  function OnCompleted(d: Device, data: LoginData): (r: (Device, Option<Notice>))
    ensures !(data.token.Some? && Truthy(data.token.value)) ==> r == (d, Some(NoToken))
    ensures data.token.Some? && Truthy(data.token.value) ==>
      && r.1.None?
      && r.0.secure == data.token
      && Session.IsSignedIn(r.0.session)
      && r.0.session.user == data.user
      && Session.Mirrors(r.0.session, r.0.stored)
  {
    if !(data.token.Some? && Truthy(data.token.value)) then (d, Some(NoToken))
    else
      var (s, st) := Session.SignIn(d.session, d.stored, data.token.value, data.user);
      (Device(s, st, data.token), None)
  }

  /** Signing out through the session. */
  function SignOut(d: Device): (r: Device)
    ensures !Session.IsSignedIn(r.session) && r.secure == d.secure
  {
    var (s, st) := Session.SignOut(d.session, d.stored);
    d.(session := s, stored := st)
  }

  /** After a login, requests carry a header the server parses back to the
      same token, so the server authenticates exactly as that token does. */
  lemma LoginHeaderAuthenticates(d: Device, token: string, user: Option<ClientUser>,
                                 verify: string -> Option<string>, users: Users.Users)
    requires token != "" && ' ' !in token
    ensures var d' := OnCompleted(d, LoginData(Some(token), user)).0;
      AuthHeader.Authenticate(Some(Header(d')), verify, users)
        == AuthHeader.Authenticate(Some("Bearer " + token), verify, users)
      && AuthHeader.Token(Header(d')) == token
  {
    assert "Bearer " + token == Join(["Bearer", token] + [], ' ') by {
      assert (["Bearer", token] + [])[1..] == [token];
    }
    AuthHeader.SchemeAndTokenOfJoin("Bearer", token, []);
  }

  /** With no token in the secure store the header is empty and the server
      refuses every protected request as not logged in. */
  lemma NoStoredTokenNoAccess(d: Device, verify: string -> Option<string>, users: Users.Users)
    requires d.secure.None? || d.secure == Some("")
    ensures Header(d) == ""
    ensures AuthHeader.Authenticate(Some(Header(d)), verify, users) == Err(AuthHeader.MissingHeader)
  {
  }

  /** Signing out leaves the secure-store token in place, so the header
      still carries it although the session is signed out. */
  lemma SignOutKeepsHeader(d: Device, token: string, user: Option<ClientUser>)
    requires token != ""
    ensures var d' := SignOut(OnCompleted(d, LoginData(Some(token), user)).0);
      !Session.IsSignedIn(d'.session) && Header(d') == "Bearer " + token
  {
  }
}

=== FILE: post_detail.dfy ===
/** The post detail screen: what it shows while loading, the comment box,
    the delete control, and the like highlight and counts, related to the
    post the server holds. */
module PostDetail {
  import opened Common
  import opened Client
  import Posts
  import PostSchema
  import Profile

  /** What the screen draws, first match wins. */
  datatype Screen = Loading | Failed(message: string) | NotFound | Content(post: FeedPost)

  function ScreenOf(loading: bool, error: Option<string>, post: Option<FeedPost>): (r: Screen)
    ensures loading ==> r == Loading
    ensures !loading && error.Some? ==> r == Failed(error.value)
    ensures !loading && error.None? && post.None? ==> r == NotFound
    ensures r.Content? <==> !loading && error.None? && post.Some?
    ensures r.Content? ==> r.post == post.value
  {
    if loading then Loading
    else if error.Some? then Failed(error.value)
    else if post.None? then NotFound
    else Content(post.value)
  }

  /** `handlePostComment`: blank text does nothing at all; then a username
      is required; the text is sent as typed, untrimmed. */
  function HandlePostComment(text: string, user: Option<ClientUser>, postId: string): (r: Handled<Profile.CommentRequest>)
    ensures Blank(text) ==> r == Ignore
    ensures !Blank(text) && !Present(UsernameOf(user)) ==> r == Warn(Profile.LoginToComment)
    ensures r.Send? <==> !Blank(text) && Present(UsernameOf(user))
    ensures r.Send? ==> r.request == Profile.CommentRequest(postId, text, UsernameOf(user).value)
  {
    if Blank(text) then Ignore
    else if !Present(UsernameOf(user)) then Warn(Profile.LoginToComment)
    else Send(Profile.CommentRequest(postId, text, UsernameOf(user).value))
  }

  /** The box is cleared once the comment is stored, and kept on error. */
  function CommentBoxAfter(text: string, stored: bool): (r: string)
    ensures stored ==> r == ""
    ensures !stored ==> r == text
  {
    if stored then "" else text
  }

  /** A comment this screen sends passes the server's checks. */
  lemma SentCommentAccepted(text: string, user: Option<ClientUser>, postId: string, db: Posts.Collection, now: int)
    requires HandlePostComment(text, user, postId).Send?
    ensures var req := HandlePostComment(text, user, postId).request;
      Posts.AddComment(db, req.postId, req.content, req.username, now).Ok?
  {
  }

  /** The two comment forms differ on padding: the profile screen trims
      what it sends and this one does not. For any text both would send,
      the two requests carry the same content exactly when the text has
      no leading or trailing white space. */
  lemma PaddingDependsOnScreen(text: string, user: Option<ClientUser>, postId: string)
    requires Present(UsernameOf(user)) && !Blank(text)
    ensures HandlePostComment(text, user, postId).Send?
    ensures Profile.HandleComment(map[postId := text], user, postId).0.Send?
    ensures HandlePostComment(text, user, postId).request.content == text
    ensures Profile.HandleComment(map[postId := text], user, postId).0.request.content == Trim(text)
    ensures (HandlePostComment(text, user, postId).request.content
             == Profile.HandleComment(map[postId := text], user, postId).0.request.content)
            <==> Trim(text) == text
  {
    assert Profile.InputText(map[postId := text], postId) == text;
  }

  /** A comment this screen sends through `commentPost` empties the box
      when `auth()` passes, since the resolver then answers `Ok`: it stores
      the comment when the post exists, and answers `Ok` with nothing
      stored when the post is gone. When `auth()` fails only `onError`
      runs and the box keeps the text. */
  lemma SentCommentClearsBox(text: string, user: Option<ClientUser>, postId: string,
                             s: PostSchema.Server, auth: Outcome, now: int)
    requires HandlePostComment(text, user, postId).Send?
    ensures var req := HandlePostComment(text, user, postId).request;
      var r := PostSchema.CommentPost(s, auth, req.postId, req.content, req.username, now);
      && (auth.Pass? ==> r.result.Ok? && CommentBoxAfter(text, r.result.Ok?) == "")
      && (auth.Fail? ==> r.result.Err? && CommentBoxAfter(text, r.result.Ok?) == text)
  {
    SentCommentAccepted(text, user, postId, s.posts, now);
  }

  /** The delete control is offered only to the post's author. */
  function CanDelete(user: Option<ClientUser>, post: FeedPost): (r: bool)
    ensures r <==> UserId(user).Some? && UserId(user).value == post.authorId
  {
    UserId(user) == Some(post.authorId)
  }

  // ---------------------------------------------------------------------
  // Likes against the stored post

  /** The stored post as the screen receives it: likes as usernames and
      comments as their contents. */
  function FeedOf(p: Posts.Post): (r: FeedPost)
    ensures r.id == p.id && r.authorId == p.authorId && r.tags == Some(p.tags)
  {
    FeedPost(p.id, p.authorId, Some(p.tags),
      Some(Map(p.likes, (l: Posts.Like) => l.username)),
      Some(Map(p.comments, (c: Posts.Comment) => c.content)))
  }

  /** The highlight is on exactly when the user's username is among the
      stored likers, and the counts are the stored list lengths. */
  lemma HighlightMatchesLikers(p: Posts.Post, user: Option<ClientUser>)
    ensures LikedBy(FeedOf(p), user) <==> UsernameOf(user).Some? && UsernameOf(user).value in Posts.Likers(p.likes)
    ensures LikeCount(FeedOf(p)) == |p.likes| && CommentCount(FeedOf(p)) == |p.comments|
  {
    var names := Map(p.likes, (l: Posts.Like) => l.username);
    if LikedBy(FeedOf(p), user) {
      var i :| 0 <= i < |names| && Some(names[i]) == UsernameOf(user);
      assert p.likes[i] in p.likes;
    }
    if UsernameOf(user).Some? && UsernameOf(user).value in Posts.Likers(p.likes) {
      var l :| l in p.likes && l.username == UsernameOf(user).value;
      var i :| 0 <= i < |p.likes| && p.likes[i] == l;
      assert Some(names[i]) == UsernameOf(user);
    }
  }

  /** A like the screen sends through `likePost` flips its own highlight
      when `auth()` passes and the post exists; when `auth()` fails the
      stored post, and so the highlight, is unchanged. */
  lemma LikeFlipsHighlight(s: PostSchema.Server, auth: Outcome, user: Option<ClientUser>, postId: string, now: int)
    requires HandleLike(user, postId).Send?
    requires Posts.FindById(s.posts, postId).Some?
    ensures var req := HandleLike(user, postId).request;
      var r := PostSchema.LikePost(s, auth, req.postId, req.username, now);
      var before := Posts.FindById(s.posts, postId).value;
      && (auth.Pass? ==>
            && r.result.Ok?
            && Posts.FindById(r.server.posts, postId).Some?
            && LikedBy(FeedOf(Posts.FindById(r.server.posts, postId).value), user) == !LikedBy(FeedOf(before), user))
      && (auth.Fail? ==> r.result.Err? && r.server.posts == s.posts)
  {
    var req := HandleLike(user, postId).request;
    var before := Posts.FindById(s.posts, postId).value;
    HighlightMatchesLikers(before, user);
    if auth.Pass? {
      var l := Posts.AddLike(s.posts, req.postId, req.username, now);
      HighlightMatchesLikers(Posts.FindById(l.value.posts, postId).value, user);
    }
  }
}

=== FILE: post_schema.dfy ===
/** The post resolvers: a read-through cache in front of the post feed and
    write-then-invalidate mutations. Each resolver reports, besides its
    answer and the new server state, the trace of cache and store effects it
    performed, so that ordering promises can be stated. The cache holds the
    feed as the joined views themselves; serialization to JSON and back is
    taken to be the identity. */
module PostSchema {
  import opened Common
  import Cache
  import Posts
  import Users

  /** The cache key of the whole feed. */
  const FeedKey: string := "posts:all"

  /** The cache key of one post. */
  function PostKey(id: string): string {
    "post:" + id
  }

  datatype Server = Server(cache: Cache.Store<seq<Posts.View>>, posts: Posts.Collection, users: Users.Users)

  /** The externally visible steps a resolver takes. */
  datatype Effect =
    | ReadCache(key: string)
    | WriteCache(key: string)
    | DropCache(key: string)
    | ReadStore
    | WriteStore

  /** What a resolver answers with. */
  datatype Answer =
    | Feed(views: seq<Posts.View>)
    | Single(view: Option<Posts.View>)
    | CommentAnswer(comment: Posts.Comment, user: Option<Users.Profile>)
    | LikeAnswer(like: Posts.Like, user: Option<Users.Profile>)
    | Removed(post: Posts.Post)

  datatype Reply = Reply(result: Result<Answer>, server: Server, trace: seq<Effect>)

  /** What the server computes when it bypasses the cache. */
  function FreshFeed(s: Server): seq<Posts.View> {
    Posts.GetPostsWithAuthor(s.posts, s.users)
  }

  /** A cache entry is dropped only after a store write in the same request. */
  predicate DropsFollowWrites(t: seq<Effect>) {
    forall i :: 0 <= i < |t| && t[i].DropCache? ==> WriteStore in t[..i]
  }

  /** The only key ever stored is the feed key. */
  predicate OnlyFeedCached(s: Server) {
    forall k :: k in s.cache ==> k == FeedKey
  }

  /** A stored feed, live or lapsed, is the feed the store would yield now. */
  predicate Coherent(s: Server) {
    FeedKey in s.cache ==> s.cache[FeedKey].value == FreshFeed(s)
  }

  /** What every resolver shares: a failed `auth()` answers its error and
      touches nothing; every failure leaves the server as it was; no entry is
      dropped before a write; and both invariants are kept. */
  predicate WellBehaved(s: Server, auth: Outcome, r: Reply) {
    && (auth.Fail? ==> r == Reply(Err(auth.msg), s, []))
    && (r.result.Err? ==> r.server == s)
    && DropsFollowWrites(r.trace)
    && (OnlyFeedCached(s) ==> OnlyFeedCached(r.server))
    && (Coherent(s) ==> Coherent(r.server))
  }

  /** The store effect of a mutation followed by the invalidations. */
  function WriteThenDrop(keys: seq<string>): (t: seq<Effect>)
    ensures DropsFollowWrites(t)
    ensures forall k :: DropCache(k) in t <==> k in keys
  {
    var t := [WriteStore] + Map(keys, k => DropCache(k));
    assert forall i :: 0 < i < |t| ==> t[..i][0] == WriteStore;
    t
  }

  /** Appending or prepending effects that drop nothing keeps the order. */
  lemma DropsFollowWritesFrame(t: seq<Effect>, before: seq<Effect>, after: seq<Effect>)
    requires DropsFollowWrites(t)
    requires forall e :: e in before + after ==> !e.DropCache?
    ensures DropsFollowWrites(before + t + after)
  {
    var u := before + t + after;
    forall i | 0 <= i < |u| && u[i].DropCache?
      ensures WriteStore in u[..i]
    {
      assert u[i] !in before + after;
      assert |before| <= i < |before| + |t| && u[i] == t[i - |before|];
      assert WriteStore in t[..i - |before|];
      assert t[..i - |before|] == u[|before|..i];
    }
  }

  /** A state whose cache lost the feed key, and kept only keys it had, keeps
      both invariants whatever happened to the store. */
  lemma FeedDroppedKeepsInvariants(s: Server, s': Server)
    requires FeedKey !in s'.cache
    requires s'.cache.Keys <= s.cache.Keys
    ensures OnlyFeedCached(s) ==> OnlyFeedCached(s')
    ensures Coherent(s')
  {
  }

  /** `allposts`: a live feed entry is served as is and the store is not
      consulted; otherwise the feed is computed, stored under the feed key
      with time-to-live `ttl`, and served. */
  function AllPosts(s: Server, auth: Outcome, now: int, ttl: Option<nat>): (r: Reply)
    ensures WellBehaved(s, auth, r)
    ensures auth.Pass? ==> r.result.Ok? && r.result.value.Feed?
    ensures auth.Pass? ==> (ReadStore in r.trace <==> !Cache.Holds(s.cache, FeedKey, now))
    ensures auth.Pass? && Cache.Holds(s.cache, FeedKey, now) ==>
      r.result.value.views == s.cache[FeedKey].value && r.server == s
    ensures auth.Pass? && !Cache.Holds(s.cache, FeedKey, now) ==>
      && r.result.value.views == FreshFeed(s)
      && FeedKey in r.server.cache
      && r.server.cache[FeedKey] == Cache.Entry(FreshFeed(s), Cache.ExpiryAt(now, ttl))
    ensures auth.Pass? && Coherent(s) ==> r.result.value.views == FreshFeed(s)
    ensures r.server.posts == s.posts && r.server.users == s.users
  {
    match auth
    case Fail(m) => Reply(Err(m), s, [])
    case Pass =>
      var l := Cache.GetOrPopulate(s.cache, FeedKey, ttl, now, FreshFeed(s));
      var t := if l.fetched then [ReadCache(FeedKey), ReadStore, WriteCache(FeedKey)] else [ReadCache(FeedKey)];
      Reply(Ok(Feed(l.value)), s.(cache := l.store), t)
  }

  /** `post(id)`: straight from the store; the cache is neither read nor
      written, so no per-post entry is ever populated. */
  function PostQuery(s: Server, auth: Outcome, id: string): (r: Reply)
    ensures WellBehaved(s, auth, r)
    ensures auth.Pass? ==> r.result == Ok(Single(Posts.GetPostWithAuthor(s.posts, s.users, id)))
    ensures r.server == s
    ensures forall k :: ReadCache(k) !in r.trace && WriteCache(k) !in r.trace && DropCache(k) !in r.trace
  {
    match auth
    case Fail(m) => Reply(Err(m), s, [])
    case Pass => Reply(Ok(Single(Posts.GetPostWithAuthor(s.posts, s.users, id))), s, [ReadStore])
  }

  /** `addPost`: create, then drop the feed, then answer the joined view of
      the new post. A rejected create leaves cache and store as they were. */
  function AddPost(s: Server, auth: Outcome, input: Posts.NewPost, newId: string, now: int): (r: Reply)
    ensures WellBehaved(s, auth, r)
    ensures auth.Pass? ==> (r.result.Ok? <==> Posts.Create(s.posts, input, newId, now).Ok?)
    ensures auth.Pass? && Posts.Create(s.posts, input, newId, now).Err? ==>
      r.result == Err(Posts.Create(s.posts, input, newId, now).msg)
    ensures r.result.Ok? ==>
      var created := Posts.Create(s.posts, input, newId, now).value;
      && r.server.posts == created.posts
      && r.server.cache == Cache.Delete(s.cache, FeedKey)
      && ((forall p :: p in s.posts ==> p.id != newId) ==>
            r.result.value == Single(Some(Posts.WithAuthor(created.post, s.users))))
  {
    match auth
    case Fail(m) => Reply(Err(m), s, [])
    case Pass =>
      match Posts.Create(s.posts, input, newId, now)
      case Err(m) => Reply(Err(m), s, [])
      case Ok(created) =>
        var s' := s.(posts := created.posts, cache := Cache.Delete(s.cache, FeedKey));
        FeedDroppedKeepsInvariants(s, s');
        DropsFollowWritesFrame(WriteThenDrop([FeedKey]), [], [ReadStore]);
        assert (forall p :: p in s.posts ==> p.id != newId) ==>
          Posts.FindById(created.posts, newId) == Some(created.post) by {
          if forall p :: p in s.posts ==> p.id != newId {
            Posts.CreatedIsFound(s.posts, input, newId, now);
          }
        }
        Reply(Ok(Single(Posts.GetPostWithAuthor(s'.posts, s'.users, newId))), s', [] + WriteThenDrop([FeedKey]) + [ReadStore])
  }

  /** The public part of the user record with this username, if any. */
  function ProfileByUsername(users: Users.Users, username: string): (r: Option<Users.Profile>)
    ensures r.Some? <==> Users.FindByUsername(users, username).Some?
    ensures r.Some? ==> r.value.username == username
  {
    match Users.FindByUsername(users, username)
    case None => None
    case Some(u) => Some(Users.ProfileOf(u))
  }

  /** `commentPost`: add the comment, then drop the feed and the post's own
      entry, then answer the comment with its author's public fields. */
  function CommentPost(s: Server, auth: Outcome, postId: string, content: string, username: string, now: int): (r: Reply)
    ensures WellBehaved(s, auth, r)
    ensures auth.Pass? ==> (r.result.Ok? <==> Posts.AddComment(s.posts, postId, content, username, now).Ok?)
    ensures auth.Pass? && Posts.AddComment(s.posts, postId, content, username, now).Err? ==>
      r.result == Err(Posts.AddComment(s.posts, postId, content, username, now).msg)
    ensures r.result.Ok? ==>
      var c := Posts.AddComment(s.posts, postId, content, username, now).value;
      && r.result.value == CommentAnswer(c.comment, ProfileByUsername(s.users, username))
      && r.server.posts == c.posts
      && r.server.cache == Cache.Delete(Cache.Delete(s.cache, FeedKey), PostKey(postId))
      && DropCache(FeedKey) in r.trace && DropCache(PostKey(postId)) in r.trace
  {
    match auth
    case Fail(m) => Reply(Err(m), s, [])
    case Pass =>
      match Posts.AddComment(s.posts, postId, content, username, now)
      case Err(m) => Reply(Err(m), s, [])
      case Ok(c) =>
        var s' := s.(posts := c.posts, cache := Cache.Delete(Cache.Delete(s.cache, FeedKey), PostKey(postId)));
        FeedDroppedKeepsInvariants(s, s');
        DropsFollowWritesFrame(WriteThenDrop([FeedKey, PostKey(postId)]), [], [ReadStore]);
        Reply(Ok(CommentAnswer(c.comment, ProfileByUsername(s.users, username))), s',
              [] + WriteThenDrop([FeedKey, PostKey(postId)]) + [ReadStore])
  }

  /** `likePost`: toggle the like, then drop the feed and the post's own
      entry, then answer the like with its author's public fields. */
  function LikePost(s: Server, auth: Outcome, postId: string, username: string, now: int): (r: Reply)
    ensures WellBehaved(s, auth, r)
    ensures auth.Pass? ==> (r.result.Ok? <==> Posts.AddLike(s.posts, postId, username, now).Ok?)
    ensures auth.Pass? && Posts.AddLike(s.posts, postId, username, now).Err? ==>
      r.result == Err(Posts.AddLike(s.posts, postId, username, now).msg)
    ensures r.result.Ok? ==>
      var l := Posts.AddLike(s.posts, postId, username, now).value;
      && r.result.value == LikeAnswer(l.like, ProfileByUsername(s.users, username))
      && r.server.posts == l.posts
      && r.server.cache == Cache.Delete(Cache.Delete(s.cache, FeedKey), PostKey(postId))
      && DropCache(FeedKey) in r.trace && DropCache(PostKey(postId)) in r.trace
  {
    match auth
    case Fail(m) => Reply(Err(m), s, [])
    case Pass =>
      match Posts.AddLike(s.posts, postId, username, now)
      case Err(m) => Reply(Err(m), s, [])
      case Ok(l) =>
        var s' := s.(posts := l.posts, cache := Cache.Delete(Cache.Delete(s.cache, FeedKey), PostKey(postId)));
        FeedDroppedKeepsInvariants(s, s');
        DropsFollowWritesFrame(WriteThenDrop([FeedKey, PostKey(postId)]), [], [ReadStore]);
        Reply(Ok(LikeAnswer(l.like, ProfileByUsername(s.users, username))), s',
              [] + WriteThenDrop([FeedKey, PostKey(postId)]) + [ReadStore])
  }

  /** `deletePost`: a missing post is "Post not found"; a delete that
      removes nothing is "Failed to delete post"; only after a removal are
      the feed and the post's entry dropped, and the post as it was before
      deletion is answered. */
  function DeletePost(s: Server, auth: Outcome, id: string): (r: Reply)
    ensures WellBehaved(s, auth, r)
    ensures auth.Pass? && Posts.FindById(s.posts, id).None? ==> r.result == Err("Post not found")
    ensures auth.Pass? ==> r.result != Err("Failed to delete post")
    ensures auth.Pass? && Posts.FindById(s.posts, id).Some? ==>
      && r.result == Ok(Removed(Posts.FindById(s.posts, id).value))
      && r.server.posts == Posts.DeleteById(s.posts, id).posts
      && r.server.cache == Cache.Delete(Cache.Delete(s.cache, FeedKey), PostKey(id))
      && DropCache(FeedKey) in r.trace && DropCache(PostKey(id)) in r.trace
  {
    match auth
    case Fail(m) => Reply(Err(m), s, [])
    case Pass =>
      match Posts.FindById(s.posts, id)
      case None => Reply(Err("Post not found"), s, [ReadStore])
      case Some(post) =>
        var d := Posts.DeleteById(s.posts, id);
        if !d.removed then Reply(Err("Failed to delete post"), s, [ReadStore, WriteStore])
        else
          var s' := s.(posts := d.posts, cache := Cache.Delete(Cache.Delete(s.cache, FeedKey), PostKey(id)));
          FeedDroppedKeepsInvariants(s, s');
          DropsFollowWritesFrame(WriteThenDrop([FeedKey, PostKey(id)]), [ReadStore], []);
          Reply(Ok(Removed(post)), s', [ReadStore] + WriteThenDrop([FeedKey, PostKey(id)]) + [])
  }

  // ---------------------------------------------------------------------
  // Sequences of requests

  datatype Request =
    | AllPostsRequest
    | PostRequest(id: string)
    | AddPostRequest(input: Posts.NewPost)
    | CommentRequest(postId: string, content: string, username: string)
    | LikeRequest(postId: string, username: string)
    | DeleteRequest(id: string)

  /** What the outside world supplies to one request: the outcome of
      `auth()`, the clock, the feed's time-to-live and the id the store would
      assign to a new post. */
  datatype Env = Env(auth: Outcome, now: int, ttl: Option<nat>, newId: string)

  function Handle(s: Server, req: Request, env: Env): (r: Reply)
    ensures WellBehaved(s, env.auth, r)
  {
    match req
    case AllPostsRequest => AllPosts(s, env.auth, env.now, env.ttl)
    case PostRequest(id) => PostQuery(s, env.auth, id)
    case AddPostRequest(input) => AddPost(s, env.auth, input, env.newId, env.now)
    case CommentRequest(postId, content, username) => CommentPost(s, env.auth, postId, content, username, env.now)
    case LikeRequest(postId, username) => LikePost(s, env.auth, postId, username, env.now)
    case DeleteRequest(id) => DeletePost(s, env.auth, id)
  }

  /** The server after serving the requests in order. */
  function Run(s: Server, reqs: seq<(Request, Env)>): Server
    decreases |reqs|
  {
    if |reqs| == 0 then s
    else Run(Handle(s, reqs[0].0, reqs[0].1).server, reqs[1..])
  }

  /** Starting from any coherent state holding at most the feed key, every
      run of requests keeps the cache holding at most the feed key, and
      keeps the stored feed equal to what the store yields. */
  lemma {:induction false} RunKeepsInvariants(s: Server, reqs: seq<(Request, Env)>)
    requires OnlyFeedCached(s) && Coherent(s)
    ensures OnlyFeedCached(Run(s, reqs)) && Coherent(Run(s, reqs))
    decreases |reqs|
  {
    if |reqs| > 0 {
      RunKeepsInvariants(Handle(s, reqs[0].0, reqs[0].1).server, reqs[1..]);
    }
  }

  /** Consequently, after any run from an empty cache, `allposts` answers
      exactly the feed the store yields, hit or miss. */
  lemma FeedNeverStale(s: Server, reqs: seq<(Request, Env)>, env: Env)
    requires s.cache == map[]
    requires env.auth.Pass?
    ensures var s' := Run(s, reqs);
      AllPosts(s', env.auth, env.now, env.ttl).result == Ok(Feed(FreshFeed(s')))
  {
    RunKeepsInvariants(s, reqs);
  }
}

=== FILE: posts.dfy ===
/** The `posts` collection: creation with defaults, comments appended at
    the end, likes as a per-username toggle, deletion, and the newest-first
    listings. The author join is kept; the joins of commenters and likers to
    their user records are not modelled. */
module Posts {
  import opened Common
  import Users

  datatype Comment = Comment(content: string, username: string, createdAt: int, updatedAt: int)

  datatype Like = Like(username: string, createdAt: int, updatedAt: int)

  datatype Post = Post(
    id: string,
    content: string,
    tags: seq<string>,
    imgUrl: Option<string>,
    authorId: string,
    comments: seq<Comment>,
    likes: seq<Like>,
    createdAt: int,
    updatedAt: int)

  /** The collection in insertion order. */
  type Collection = seq<Post>

  /** Position of the first post with this id, as `findOne`, `updateOne`
      and `deleteOne` pick it. */
  function IndexOfId(db: Collection, id: string): (r: Option<nat>)
    ensures r.Some? ==> r.value < |db| && db[r.value].id == id
    ensures r.Some? ==> forall j :: 0 <= j < r.value ==> db[j].id != id
    ensures r.None? <==> forall j :: 0 <= j < |db| ==> db[j].id != id
  {
    if |db| == 0 then None
    else if db[0].id == id then Some(0)
    else match IndexOfId(db[1..], id)
      case None => None
      case Some(i) => Some(i + 1)
  }

  /** `Post.findById`. */
  function FindById(db: Collection, id: string): (r: Option<Post>)
    ensures r.Some? ==> r.value in db && r.value.id == id
    ensures r.None? <==> forall p :: p in db ==> p.id != id
  {
    match IndexOfId(db, id)
    case None => None
    case Some(i) => Some(db[i])
  }

  /** Replacing the first post with an id by a post with the same id makes
      the replacement what that id now finds; every other slot is kept. */
  lemma FindAfterReplace(db: Collection, i: nat, q: Post)
    requires IndexOfId(db, q.id) == Some(i)
    ensures FindById(db[i := q], q.id) == Some(q)
  {
    var db' := db[i := q];
    assert forall j :: 0 <= j < i ==> db'[j].id != q.id;
    assert db'[i].id == q.id;
    assert IndexOfId(db', q.id) == Some(i);
  }

  // ---------------------------------------------------------------------
  // Creation

  datatype NewPost = NewPost(content: string, tags: Option<seq<string>>, imgUrl: Option<string>, authorId: string)

  datatype Created = Created(post: Post, posts: Collection)

  /** `Post.create`: content is required, then the author id; tags default
      to the empty list, comments and likes start empty, both timestamps are
      the creation instant, and the supplied fields are kept. */
  function Create(db: Collection, input: NewPost, newId: string, now: int): (r: Result<Created>)
    ensures input.content == "" ==> r == Err("Content is required")
    ensures input.content != "" && input.authorId == "" ==> r == Err("AuthorId is required")
    ensures r.Ok? <==> input.content != "" && input.authorId != ""
    ensures r.Ok? ==> var p := r.value.post;
      && p.id == newId && p.content == input.content && p.imgUrl == input.imgUrl
      && p.authorId == input.authorId
      && (input.tags.None? ==> p.tags == []) && (input.tags.Some? ==> p.tags == input.tags.value)
      && p.comments == [] && p.likes == [] && p.createdAt == now && p.updatedAt == now
    ensures r.Ok? ==> r.value.posts == db + [r.value.post]
  {
    if input.content == "" then Err("Content is required")
    else if input.authorId == "" then Err("AuthorId is required")
    else
      var p := Post(newId, input.content, input.tags.GetOr([]), input.imgUrl, input.authorId, [], [], now, now);
      Ok(Created(p, db + [p]))
  }

  /** A post created under an id no other post has is found under it. */
  lemma CreatedIsFound(db: Collection, input: NewPost, newId: string, now: int)
    requires forall p :: p in db ==> p.id != newId
    requires Create(db, input, newId, now).Ok?
    ensures var c := Create(db, input, newId, now).value;
      FindById(c.posts, newId) == Some(c.post)
  {
    var c := Create(db, input, newId, now).value;
    assert IndexOfId(c.posts, newId) == Some(|db|) by {
      assert c.posts[|db|].id == newId;
      assert forall j :: 0 <= j < |db| ==> c.posts[j] == db[j] && db[j] in db;
    }
  }

  // ---------------------------------------------------------------------
  // Comments

  datatype Commented = Commented(comment: Comment, posts: Collection)

  /** `Post.addComment`: content is required, then the username; the
      comment is appended at the end of the post's comments and returned.
      A missing post is not an error: nothing is updated and the comment is
      still returned. */
  function AddComment(db: Collection, postId: string, content: string, username: string, now: int): (r: Result<Commented>)
    ensures content == "" ==> r == Err("Comment content is required")
    ensures content != "" && username == "" ==> r == Err("Comment username is required")
    ensures r.Ok? <==> content != "" && username != ""
    ensures r.Ok? ==> r.value.comment == Comment(content, username, now, now)
    ensures r.Ok? && FindById(db, postId).None? ==> r.value.posts == db
    ensures r.Ok? && FindById(db, postId).Some? ==>
      var p := FindById(db, postId).value;
      FindById(r.value.posts, postId) == Some(p.(comments := p.comments + [r.value.comment], updatedAt := now))
    ensures r.Ok? ==> (|r.value.posts| == |db|
      && forall j :: 0 <= j < |db| && db[j].id != postId ==> r.value.posts[j] == db[j])
  {
    if content == "" then Err("Comment content is required")
    else if username == "" then Err("Comment username is required")
    else
      var c := Comment(content, username, now, now);
      match IndexOfId(db, postId)
      case None => Ok(Commented(c, db))
      case Some(i) =>
        var p := db[i];
        var q := p.(comments := p.comments + [c], updatedAt := now);
        FindAfterReplace(db, i, q);
        Ok(Commented(c, db[i := q]))
  }

  // ---------------------------------------------------------------------
  // Likes

  predicate LikedBy(u: string, l: Like) {
    l.username == u
  }

  /** The usernames that have liked, as a set. */
  function Likers(likes: seq<Like>): set<string> {
    set l | l in likes :: l.username
  }

  /** No username appears on two likes. */
  predicate DistinctLikers(likes: seq<Like>) {
    forall i, j :: 0 <= i < j < |likes| ==> likes[i].username != likes[j].username
  }

  /** `$pull: { likes: { username } }`: drops every like by `u` and keeps
      every other like, each copy, in array order. */
  function WithoutLiker(likes: seq<Like>, u: string): (r: seq<Like>)
    ensures r == Filter(likes, (l: Like) => !LikedBy(u, l))
    ensures forall l :: l in r <==> l in likes && l.username != u
    ensures Likers(r) == Likers(likes) - {u}
  {
    if |likes| == 0 then []
    else
      assert likes == [likes[0]] + likes[1..];
      var rest := WithoutLiker(likes[1..], u);
      if likes[0].username == u then
        assert rest == Filter(likes, (l: Like) => !LikedBy(u, l));
        rest
      else
        assert [likes[0]] + rest == Filter(likes, (l: Like) => !LikedBy(u, l));
        [likes[0]] + rest
  }

  /** A like in front keeps the usernames distinct exactly when the rest
      are distinct and none of them shares its username. */
  lemma DistinctCons(x: Like, xs: seq<Like>)
    ensures DistinctLikers([x] + xs) <==> DistinctLikers(xs) && forall l :: l in xs ==> l.username != x.username
  {
    var r := [x] + xs;
    if DistinctLikers(r) {
      forall i, j | 0 <= i < j < |xs| ensures xs[i].username != xs[j].username {
        assert xs[i] == r[i + 1] && xs[j] == r[j + 1];
      }
      forall l | l in xs ensures l.username != x.username {
        var k :| 0 <= k < |xs| && xs[k] == l;
        assert r[0] == x && r[k + 1] == l;
        assert r[0].username != r[k + 1].username;
      }
    }
    if DistinctLikers(xs) && forall l :: l in xs ==> l.username != x.username {
      forall i, j | 0 <= i < j < |r| ensures r[i].username != r[j].username {
        assert r[j] == xs[j - 1] && r[j] in xs;
        if i > 0 {
          assert r[i] == xs[i - 1];
        }
      }
    }
  }

  /** `$pull` never makes a username appear twice. */
  lemma {:induction false} WithoutLikerKeepsDistinct(likes: seq<Like>, u: string)
    ensures DistinctLikers(likes) ==> DistinctLikers(WithoutLiker(likes, u))
  {
    if |likes| > 0 && DistinctLikers(likes) {
      var tail := likes[1..];
      assert likes == [likes[0]] + tail;
      DistinctCons(likes[0], tail);
      WithoutLikerKeepsDistinct(tail, u);
      var rest := WithoutLiker(tail, u);
      if likes[0].username != u {
        assert WithoutLiker(likes, u) == [likes[0]] + rest;
        DistinctCons(likes[0], rest);
      }
    }
  }

  /** `$pull` keeps the remaining likes in their array order. */
  lemma WithoutLikerKeepsOrder(likes: seq<Like>, u: string)
    ensures IsSubsequence(WithoutLiker(likes, u), likes)
    ensures |WithoutLiker(likes, u)| == |likes| - Count(likes, (l: Like) => LikedBy(u, l))
  {
    FilterIsSubsequence(likes, (l: Like) => !LikedBy(u, l));
    FilterSplitsCount(likes, (l: Like) => LikedBy(u, l), (l: Like) => !LikedBy(u, l));
  }

  /** The likes after `addLike` by `u`: withdrawn when `u` already likes,
      otherwise one new like appended. */
  function Toggled(likes: seq<Like>, u: string, now: int): (r: seq<Like>)
    ensures u in Likers(likes) ==> r == WithoutLiker(likes, u) && Likers(r) == Likers(likes) - {u}
    ensures u !in Likers(likes) ==>
      && |r| == |likes| + 1 && r[..|likes|] == likes && r[|likes|] == Like(u, now, now)
      && Likers(r) == Likers(likes) + {u}
    ensures DistinctLikers(likes) ==> DistinctLikers(r)
  {
    assert u in Likers(likes) <==> exists l :: l in likes && LikedBy(u, l);
    WithoutLikerKeepsDistinct(likes, u);
    match First(likes, (l: Like) => LikedBy(u, l))
    case Some(_) => WithoutLiker(likes, u)
    case None =>
      var r := likes + [Like(u, now, now)];
      AppendedLiker(likes, Like(u, now, now));
      assert r[..|likes|] == likes;
      r
  }

  /** Appending a like by a new username adds exactly that username and
      keeps the usernames distinct. */
  lemma AppendedLiker(likes: seq<Like>, x: Like)
    requires x.username !in Likers(likes)
    ensures Likers(likes + [x]) == Likers(likes) + {x.username}
    ensures DistinctLikers(likes) ==> DistinctLikers(likes + [x])
  {
    var r := likes + [x];
    assert forall l :: l in r <==> l in likes || l == x;
    if DistinctLikers(likes) {
      forall i, j | 0 <= i < j < |r| ensures r[i].username != r[j].username {
        assert r[i] == likes[i];
        if j < |likes| {
          assert r[j] == likes[j];
        } else {
          assert likes[i] in likes;
        }
      }
    }
  }

  datatype Liked = Liked(like: Like, posts: Collection)

  /** `Post.addLike`: the username is required before the post is looked
      up; the like is then toggled. Withdrawing returns the like that was
      there, adding returns the new one. */
  function AddLike(db: Collection, postId: string, username: string, now: int): (r: Result<Liked>)
    ensures username == "" ==> r == Err("Like username is required")
    ensures username != "" && FindById(db, postId).None? ==> r == Err("Post not found")
    ensures r.Ok? <==> username != "" && FindById(db, postId).Some?
    ensures r.Ok? ==>
      var p := FindById(db, postId).value;
      && FindById(r.value.posts, postId) == Some(p.(likes := Toggled(p.likes, username, now), updatedAt := now))
      && (username in Likers(p.likes) ==>
            r.value.like == First(p.likes, (l: Like) => LikedBy(username, l)).value && r.value.like.username == username)
      && (username !in Likers(p.likes) ==> r.value.like == Like(username, now, now))
    ensures r.Ok? ==> (|r.value.posts| == |db|
      && forall j :: 0 <= j < |db| && db[j].id != postId ==> r.value.posts[j] == db[j])
  {
    if username == "" then Err("Like username is required")
    else match IndexOfId(db, postId)
      case None => Err("Post not found")
      case Some(i) =>
        var p := db[i];
        var q := p.(likes := Toggled(p.likes, username, now), updatedAt := now);
        FindAfterReplace(db, i, q);
        var like := match First(p.likes, (l: Like) => LikedBy(username, l))
          case Some(existing) => existing
          case None => Like(username, now, now);
        assert username in Likers(p.likes) <==> exists l :: l in p.likes && LikedBy(username, l);
        Ok(Liked(like, db[i := q]))
  }

  /** Two likes by the same username leave the set of likers as it was. */
  lemma LikeTwiceRestoresLikers(likes: seq<Like>, u: string, t1: int, t2: int)
    ensures Likers(Toggled(Toggled(likes, u, t1), u, t2)) == Likers(likes)
  {
  }

  /** When `u` had not liked, liking and unliking restores the likes exactly. */
  lemma LikeUnlikeRestoresLikes(likes: seq<Like>, u: string, t1: int, t2: int)
    requires u !in Likers(likes)
    ensures Toggled(Toggled(likes, u, t1), u, t2) == likes
  {
    var added := likes + [Like(u, t1, t1)];
    assert First(likes, (l: Like) => LikedBy(u, l)).None?;
    assert Toggled(likes, u, t1) == added;
    assert First(added, (l: Like) => LikedBy(u, l)).Some? by {
      assert added[|likes|] in added;
    }
    WithoutAbsentAppended(likes, Like(u, t1, t1));
  }

  lemma {:induction false} WithoutAbsentAppended(likes: seq<Like>, l: Like)
    requires l.username !in Likers(likes)
    ensures WithoutLiker(likes + [l], l.username) == likes
  {
    if |likes| == 0 {
      assert likes + [l] == [l];
    } else {
      var u := l.username;
      assert (likes + [l])[0] == likes[0] && (likes + [l])[1..] == likes[1..] + [l];
      assert likes[0].username in Likers(likes);
      assert Likers(likes[1..]) <= Likers(likes) by {
        forall x | x in likes[1..] ensures x in likes { }
      }
      WithoutAbsentAppended(likes[1..], l);
      assert WithoutLiker(likes + [l], u) == [likes[0]] + WithoutLiker(likes[1..] + [l], u);
      assert likes == [likes[0]] + likes[1..];
    }
  }

  // ---------------------------------------------------------------------
  // Deletion

  datatype Deleted = Deleted(removed: bool, posts: Collection)

  /** `Post.deleteById`: removes the first post with the id and reports
      whether one was removed. */
  function DeleteById(db: Collection, id: string): (r: Deleted)
    ensures r.removed <==> FindById(db, id).Some?
    ensures !r.removed ==> r.posts == db
    ensures r.removed ==> (|r.posts| == |db| - 1
      && multiset(r.posts) + multiset{FindById(db, id).value} == multiset(db))
  {
    match IndexOfId(db, id)
    case None => Deleted(false, db)
    case Some(i) =>
      assert db == db[..i] + [db[i]] + db[i + 1..];
      Deleted(true, db[..i] + db[i + 1..])
  }

  // ---------------------------------------------------------------------
  // Listings

  /** `sort({ createdAt: -1 })`: newest first. */
  predicate NewestFirst(s: seq<Post>) {
    forall i, j :: 0 <= i < j < |s| ==> s[i].createdAt >= s[j].createdAt
  }

  function Insert(p: Post, s: seq<Post>): (r: seq<Post>)
    requires NewestFirst(s)
    ensures NewestFirst(r)
    ensures multiset(r) == multiset(s) + multiset{p}
  {
    if |s| == 0 then [p]
    else if p.createdAt >= s[0].createdAt then [p] + s
    else
      var t := Insert(p, s[1..]);
      InsertBehindHead(p, s, t);
      [s[0]] + t
  }

  /** Putting the head of `s` in front of the insertion into its tail keeps
      the list newest first. */
  lemma InsertBehindHead(p: Post, s: seq<Post>, t: seq<Post>)
    requires |s| > 0 && NewestFirst(s) && NewestFirst(t)
    requires p.createdAt < s[0].createdAt
    requires multiset(t) == multiset(s[1..]) + multiset{p}
    ensures NewestFirst([s[0]] + t)
    ensures multiset([s[0]] + t) == multiset(s) + multiset{p}
  {
    assert s == [s[0]] + s[1..];
    forall k | 0 <= k < |t| ensures t[k].createdAt <= s[0].createdAt {
      assert t[k] in multiset(t);
      if t[k] != p {
        assert t[k] in multiset(s[1..]);
        var j :| 0 <= j < |s[1..]| && s[1..][j] == t[k];
        assert s[j + 1] == t[k];
      }
    }
    var r := [s[0]] + t;
    forall i, j | 0 <= i < j < |r| ensures r[i].createdAt >= r[j].createdAt {
      assert r[j] == t[j - 1];
      if i > 0 {
        assert r[i] == t[i - 1];
      }
    }
  }

  /** The posts reordered newest first. Posts created at the same instant
      come out in an order the database leaves unspecified; this model
      picks one. */
  function SortNewestFirst(s: seq<Post>): (r: seq<Post>)
    ensures NewestFirst(r)
    ensures multiset(r) == multiset(s)
  {
    if |s| == 0 then []
    else
      assert s == [s[0]] + s[1..];
      Insert(s[0], SortNewestFirst(s[1..]))
  }

  /** `Post.findAll`: every post, newest first. */
  function FindAll(db: Collection): (r: seq<Post>)
    ensures NewestFirst(r) && multiset(r) == multiset(db) && |r| == |db|
  {
    var r := SortNewestFirst(db);
    assert |r| == |multiset(r)| == |multiset(db)| == |db|;
    r
  }

  datatype Author = Author(id: string, username: string, name: Option<string>)

  /** A post joined to its author record, if the author exists. */
  datatype View = View(post: Post, author: Option<Author>)

  function WithAuthor(p: Post, users: Users.Users): (v: View)
    ensures v.post == p
    ensures v.author.Some? <==> Users.FindById(users, p.authorId).Some?
  {
    match Users.FindById(users, p.authorId)
    case None => View(p, None)
    case Some(u) => View(p, Some(Author(u.id, u.username, u.name)))
  }

  /** `Post.getPostWithAuthor`: the joined post, or null when no post has
      the id. */
  function GetPostWithAuthor(db: Collection, users: Users.Users, id: string): (r: Option<View>)
    ensures r.None? <==> FindById(db, id).None?
    ensures r.Some? ==> r.value.post == FindById(db, id).value
  {
    match FindById(db, id)
    case None => None
    case Some(p) => Some(WithAuthor(p, users))
  }

  /** `Post.getPostsWithAuthor`: every post joined to its author, newest
      first. */
  function GetPostsWithAuthor(db: Collection, users: Users.Users): (r: seq<View>)
    ensures |r| == |db|
    ensures forall i, j :: 0 <= i < j < |r| ==> r[i].post.createdAt >= r[j].post.createdAt
    ensures forall i :: 0 <= i < |r| ==> r[i].post in db && r[i] == WithAuthor(r[i].post, users)
    ensures forall p :: p in db ==> exists i :: 0 <= i < |r| && r[i].post == p
  {
    var sorted := FindAll(db);
    JoinedCoversSorted(sorted, db, users);
    Map(sorted, p => WithAuthor(p, users))
  }

  /** Joining a reordering of the collection yields exactly one view per
      stored post. */
  lemma JoinedCoversSorted(sorted: seq<Post>, db: Collection, users: Users.Users)
    requires multiset(sorted) == multiset(db)
    ensures var r := Map(sorted, p => WithAuthor(p, users));
      && (forall i :: 0 <= i < |r| ==> r[i].post in db)
      && (forall p :: p in db ==> exists i :: 0 <= i < |r| && r[i].post == p)
  {
    var r := Map(sorted, p => WithAuthor(p, users));
    forall i | 0 <= i < |r| ensures r[i].post in db {
      assert sorted[i] in multiset(db);
    }
    forall p | p in db ensures exists i :: 0 <= i < |r| && r[i].post == p {
      assert p in multiset(sorted);
      var i :| 0 <= i < |sorted| && sorted[i] == p;
      assert r[i].post == p;
    }
  }
}

=== FILE: profile.dfy ===
/** The profile screen: the signed-in user's own posts, the per-post comment
    boxes, the avatar initial and the subscriber count. Liking goes through
    `Client.HandleLike`, and the like highlight and count through
    `Client.LikedBy` and `Client.LikeCount`. */
module Profile {
  import opened Common
  import opened Client
  import Posts

  /** `myPosts`: the posts whose author is the signed-in user, in feed
      order. */
  function MyPosts(posts: seq<FeedPost>, user: Option<ClientUser>): (r: seq<FeedPost>)
    ensures forall p :: p in r <==> p in posts && Some(p.authorId) == UserId(user)
    ensures IsSubsequence(r, posts)
    ensures forall p :: multiset(r)[p] == if Some(p.authorId) == UserId(user) then multiset(posts)[p] else 0
  {
    FilterIsSubsequence(posts, (p: FeedPost) => Some(p.authorId) == UserId(user));
    FilterMultiplicity(posts, (p: FeedPost) => Some(p.authorId) == UserId(user));
    Filter(posts, (p: FeedPost) => Some(p.authorId) == UserId(user))
  }

  /** Without a user id no post is anyone's own. */
  lemma SignedOutOwnsNothing(posts: seq<FeedPost>, user: Option<ClientUser>)
    requires UserId(user).None?
    ensures MyPosts(posts, user) == []
  {
    FilterNone(posts, (p: FeedPost) => Some(p.authorId) == UserId(user));
  }

  // ---------------------------------------------------------------------
  // Comments

  datatype CommentRequest = CommentRequest(postId: string, content: string, username: string)

  const EmptyComment := Notice("Empty Comment", "Please write something first")
  const LoginToComment := Notice("Login Required", "Please login to comment")

  /** One comment box per post id; a box never typed into reads as "". */
  type Inputs = map<string, string>

  function InputText(inputs: Inputs, postId: string): string {
    if postId in inputs then inputs[postId] else ""
  }

  /** `handleComment`: the box is trimmed and must be non-empty before the
      username is checked; the trimmed text is sent and then that post's
      box alone is cleared. */
  function HandleComment(inputs: Inputs, user: Option<ClientUser>, postId: string): (r: (Handled<CommentRequest>, Inputs))
    ensures Blank(InputText(inputs, postId)) ==> r == (Warn(EmptyComment), inputs)
    ensures !Blank(InputText(inputs, postId)) && !Present(UsernameOf(user)) ==> r == (Warn(LoginToComment), inputs)
    ensures r.0.Send? <==> !Blank(InputText(inputs, postId)) && Present(UsernameOf(user))
    ensures r.0.Send? ==>
      && r.0.request == CommentRequest(postId, Trim(InputText(inputs, postId)), UsernameOf(user).value)
      && InputText(r.1, postId) == ""
    ensures forall k :: k != postId ==> InputText(r.1, k) == InputText(inputs, k)
    ensures !r.0.Ignore?
  {
    var text := Trim(InputText(inputs, postId));
    if text == "" then (Warn(EmptyComment), inputs)
    else if !Present(UsernameOf(user)) then (Warn(LoginToComment), inputs)
    else (Send(CommentRequest(postId, text, UsernameOf(user).value)), ClearBox(inputs, postId))
  }

  /** Empties one post's box and leaves every other box as it was. */
  function ClearBox(inputs: Inputs, postId: string): (r: Inputs)
    ensures InputText(r, postId) == ""
    ensures forall k :: k != postId ==> InputText(r, k) == InputText(inputs, k)
  {
    inputs[postId := ""]
  }

  /** A comment the profile screen sends passes the server's checks on
      content and username, and the server stores it without padding. */
  lemma SentCommentAccepted(inputs: Inputs, user: Option<ClientUser>, postId: string, db: Posts.Collection, now: int)
    requires HandleComment(inputs, user, postId).0.Send?
    ensures var req := HandleComment(inputs, user, postId).0.request;
      && Posts.AddComment(db, req.postId, req.content, req.username, now).Ok?
      && Trim(req.content) == req.content
  {
    TrimIdempotent(InputText(inputs, postId));
  }

  // ---------------------------------------------------------------------
  // Header

  function NameOf(user: Option<ClientUser>): Option<string> {
    if user.Some? then user.value.name else None
  }

  /** `userInitial`: the first character of the name, else of the username,
      else "U", upper-cased. */
  function UserInitial(user: Option<ClientUser>): (r: string)
    ensures |r| == 1 && !('a' <= r[0] <= 'z')
    ensures Present(NameOf(user)) ==> r == [UpperChar(NameOf(user).value[0])]
    ensures !Present(NameOf(user)) && Present(UsernameOf(user)) ==> r == [UpperChar(UsernameOf(user).value[0])]
    ensures !Present(NameOf(user)) && !Present(UsernameOf(user)) ==> r == "U"
  {
    var source :=
      if Present(NameOf(user)) then NameOf(user).value
      else if Present(UsernameOf(user)) then UsernameOf(user).value
      else "U";
    [UpperChar(source[0])]
  }

  /** `followers || 0`: a missing count, like zero, shows as 0. */
  function FollowersShown(followers: Option<nat>): (r: nat)
    ensures r == followers.GetOr(0)
  {
    if followers.Some? && followers.value != 0 then followers.value else 0
  }

  /** The label is singular only for a count of exactly one. */
  function FollowersLabel(followers: Option<nat>): (r: string)
    ensures r == "Subscriber" <==> followers == Some(1)
    ensures r == "Subscriber" || r == "Subscribers"
  {
    if followers == Some(1) then "Subscriber" else "Subscribers"
  }

  /** The label and the number beside it agree. */
  lemma LabelAgreesWithCount(followers: Option<nat>)
    ensures FollowersLabel(followers) == "Subscriber" <==> FollowersShown(followers) == 1
  {
  }
}

=== FILE: register_screen.dfy ===
/** The registration form: its four fields, the presence checks made before
    the mutation is sent, how the fields are normalised, and the alert shown
    once the account exists. */
module RegisterScreen {
  import opened Common
  import opened Client
  import Alerts
  import Users

  datatype Field = Name | Username | Email | Password

  datatype Form = Form(name: string, username: string, email: string, password: string)

  const Empty := Form("", "", "", "")

  function Get(f: Form, k: Field): string {
    match k
    case Name => f.name
    case Username => f.username
    case Email => f.email
    case Password => f.password
  }

  /** `updateField(key, value)`: that field takes the value, the others
      keep theirs. */
  function UpdateField(f: Form, k: Field, v: string): (r: Form)
    ensures Get(r, k) == v
    ensures forall j :: j != k ==> Get(r, j) == Get(f, j)
  {
    match k
    case Name => f.(name := v)
    case Username => f.(username := v)
    case Email => f.(email := v)
    case Password => f.(password := v)
  }

  /** A form is determined by its four fields. */
  lemma FieldsDetermineForm(f: Form, g: Form)
    requires forall k :: Get(f, k) == Get(g, k)
    ensures f == g
  {
    assert Get(f, Name) == Get(g, Name) && Get(f, Username) == Get(g, Username);
    assert Get(f, Email) == Get(g, Email) && Get(f, Password) == Get(g, Password);
  }

  /** Writing a field twice keeps only the second value, and writing back
      what a field holds changes nothing. */
  lemma UpdateFieldLaws(f: Form, k: Field, v: string, w: string)
    ensures UpdateField(UpdateField(f, k, v), k, w) == UpdateField(f, k, w)
    ensures UpdateField(f, k, Get(f, k)) == f
  {
    FieldsDetermineForm(UpdateField(UpdateField(f, k, v), k, w), UpdateField(f, k, w));
    FieldsDetermineForm(UpdateField(f, k, Get(f, k)), f);
  }

  const Incomplete := Notice("Data Belum Lengkap", "Isi username, email, dan password.")

  /** `handleRegister`: username, email and password must be non-blank (the
      name may be empty); name, username and email are sent trimmed and the
      password as typed. */
  function HandleRegister(f: Form): (r: Handled<Users.NewUser>)
    ensures r.Send? <==> !Blank(f.username) && !Blank(f.email) && !Blank(f.password)
    ensures !r.Send? ==> r == Warn(Incomplete)
    ensures r.Send? ==> r.request == Users.NewUser(Some(Trim(f.name)), Trim(f.username), Trim(f.email), f.password)
  {
    if Blank(f.username) || Blank(f.email) || Blank(f.password) then Warn(Incomplete)
    else Send(Users.NewUser(Some(Trim(f.name)), Trim(f.username), Trim(f.email), f.password))
  }

  /** A registration the form sends never fails the server's three
      presence checks: it is accepted, or refused for the password length,
      the email shape, the username length or a taken username or email. */
  lemma SentRegistrationHasRequiredFields(f: Form, users: Users.Users, hash: string -> string, newId: string)
    requires HandleRegister(f).Send?
    ensures var r := Users.Create(users, HandleRegister(f).request, hash, newId);
      r.Ok? || r.msg in LaterChecks
  {
    var input := HandleRegister(f).request;
    assert Blank("");
    PresentFieldsPassPresenceChecks(users, input, hash, newId);
  }

  /** The messages `User.create` can give once all three fields are
      present. */
  const LaterChecks := {"Password must be at least 5 characters", "Invalid email format",
    "Username must be at least 3 characters", "Username already exists", "Email already exists"}

  lemma PresentFieldsPassPresenceChecks(users: Users.Users, input: Users.NewUser, hash: string -> string, newId: string)
    requires input.username != "" && input.email != "" && input.password != ""
    ensures var r := Users.Create(users, input, hash, newId);
      r.Ok? || r.msg in LaterChecks
  {
    var r := Users.Create(users, input, hash, newId);
    if !Users.WellFormed(input) {
      assert r.Err? && r.msg in LaterChecks;
    } else if Users.FindByUsername(users, input.username).Some? {
      assert r == Err("Username already exists");
    } else if Users.FindByEmail(users, input.email).Some? {
      assert r == Err("Email already exists");
    } else {
      assert r.Ok?;
    }
  }

  // ---------------------------------------------------------------------
  // After the mutation

  /** What the success alert's callbacks do. */
  datatype Action = GoToLogin | CloseAlert

  /** `onCompleted`: a success alert whose single OK button leads to the
      login screen; dismissing closes the alert. */
  const Registered: Alerts.Props<Action> := Alerts.Props(
    Some("Registrasi Berhasil"),
    Some("Silakan login untuk melanjutkan."),
    Some("success"),
    Some([Alerts.Button("OK", Some(GoToLogin))]),
    Some(CloseAlert))

  /** `onError`: the server's message in an error alert with a plain OK. */
  function Failed(message: string): (r: Alerts.Props<Action>)
    ensures Alerts.KindOf(r) == "error" && Alerts.Shown(r) == [Alerts.Button("OK", None)]
    ensures r.message == Some(message)
  {
    Alerts.Props(Some("Registrasi Gagal"), Some(message), Some("error"), Some([Alerts.Button("OK", None)]), Some(CloseAlert))
  }

  /** The success alert shows one button, and pressing it goes to the login
      screen and then closes the alert. */
  lemma RegisteredLeadsToLogin()
    ensures Alerts.Shown(Registered) == [Alerts.Button("OK", Some(GoToLogin))]
    ensures Alerts.Press(Alerts.Shown(Registered)[0], Registered.onDismiss) == [GoToLogin, CloseAlert]
    ensures Alerts.GetIcon(Alerts.KindOf(Registered)) == Alerts.Icon("check-circle", "#4caf50")
  {
  }
}

=== FILE: search.dfy ===
/** The search screen: the list of ids the signed-in user subscribes to,
    the subscribe/unsubscribe toggle that keeps it in step with the server,
    and the selected user's posts. `handleFollow` is split at its `await`:
    `Decide` chooses the request, `Settle` applies the answer. */
module Search {
  import opened Common
  import opened Client
  import Follows
  import FollowSchema

  /** The user whose profile is open, with the follower count shown. */
  datatype Selected = Selected(id: string, followers: nat)

  datatype Alert = Alert(title: string, message: string, kind: string)

  datatype State = State(
    user: Option<ClientUser>,
    subscribed: seq<string>,
    searchText: string,
    selected: Option<Selected>,
    alert: Option<Alert>)

  /** The mutation chosen: `unfollow` when the id is already subscribed. */
  datatype FollowRequest = FollowRequest(unfollow: bool, followingId: string, followerId: string)

  const LoginFirst := Notice("Login Required", "Please login first")
  const SelfSubscribe := Notice("Cannot Subscribe", "You cannot subscribe to yourself")

  /** The message of the error thrown when `selectedUser` is null and its
      `_id` is read; its wording belongs to the JavaScript engine. */
  const NullSelected := "Cannot read property '_id' of null"

  /** The same, when a successful answer carries no user to read
      `followers` from. */
  const NullAnswerUser := "Cannot read property 'followers' of null"

  /** The first half of `handleFollow`: a signed-in user other than the
      target is required; the request toggles the target's subscription. */
  function Decide(st: State, followingId: string): (r: Handled<FollowRequest>)
    ensures !Present(UserId(st.user)) ==> r == Warn(LoginFirst)
    ensures Present(UserId(st.user)) && followingId == UserId(st.user).value ==> r == Warn(SelfSubscribe)
    ensures r.Send? <==> Present(UserId(st.user)) && followingId != UserId(st.user).value
    ensures r.Send? ==> r.request == FollowRequest(followingId in st.subscribed, followingId, UserId(st.user).value)
    ensures !r.Ignore?
  {
    if !Present(UserId(st.user)) then Warn(LoginFirst)
    else if followingId == UserId(st.user).value then Warn(SelfSubscribe)
    else Send(FollowRequest(followingId in st.subscribed, followingId, UserId(st.user).value))
  }

  /** The subscribed list after a successful toggle: a subscribe appends
      the id at the end; an unsubscribe drops every copy of it and keeps
      the others in order. */
  function Toggle(subscribed: seq<string>, req: FollowRequest): (r: seq<string>)
    ensures forall x :: x in r <==> (if x == req.followingId then !req.unfollow else x in subscribed)
    ensures !req.unfollow ==> |r| == |subscribed| + 1 && r[..|subscribed|] == subscribed && r[|subscribed|] == req.followingId
    ensures req.unfollow ==> IsSubsequence(r, subscribed)
  {
    if req.unfollow then
      FilterIsSubsequence(subscribed, (id: string) => id != req.followingId);
      Filter(subscribed, (id: string) => id != req.followingId)
    else
      var r := subscribed + [req.followingId];
      assert r[..|subscribed|] == subscribed;
      r
  }

  /** The second half of `handleFollow`. A thrown error, or an answer with
      `success` false, leaves everything but the alert alone. On success the
      list is toggled first; then the selected user's count is taken from
      the answer, and with no selected user the property read throws, so
      the toggled list stays and an error alert is shown. */
  function Settle(st: State, req: FollowRequest, reply: Result<FollowSchema.FollowResponse>): (r: State)
    ensures r.user == st.user && r.searchText == st.searchText
    ensures reply.Err? ==> r == st.(alert := Some(Alert("Error", reply.msg, "error")))
    ensures reply.Ok? && !reply.value.success ==>
      r == st.(alert := Some(Alert("Error", reply.value.message, "error")))
    ensures reply.Ok? && reply.value.success ==> r.subscribed == Toggle(st.subscribed, req)
    ensures reply.Ok? && reply.value.success && st.selected.None? ==>
      r.selected.None? && r.alert == Some(Alert("Error", NullSelected, "error"))
    ensures (reply.Ok? && reply.value.success && st.selected.Some? && st.selected.value.id == req.followingId
      && reply.value.user.Some?) ==>
      r.selected == Some(st.selected.value.(followers := reply.value.user.value.followers))
    ensures (reply.Ok? && reply.value.success && st.selected.Some? && st.selected.value.id != req.followingId) ==>
      r.selected == st.selected
    ensures (reply.Ok? && reply.value.success && st.selected.Some?
      && (st.selected.value.id != req.followingId || reply.value.user.Some?)) ==>
      r.alert == Some(if req.unfollow then Alert("Unsubscribed", "Unsubscribed successfully!", "success")
                      else Alert("Subscribed", "Subscribed successfully!", "success"))
  {
    match reply
    case Err(m) => st.(alert := Some(Alert("Error", m, "error")))
    case Ok(resp) =>
      if !resp.success then st.(alert := Some(Alert("Error", resp.message, "error")))
      else
        var st' := st.(subscribed := Toggle(st.subscribed, req));
        if st.selected.None? then st'.(alert := Some(Alert("Error", NullSelected, "error")))
        else if st.selected.value.id == req.followingId && resp.user.None? then
          st'.(alert := Some(Alert("Error", NullAnswerUser, "error")))
        else
          var sel := if st.selected.value.id == req.followingId
            then Some(st.selected.value.(followers := resp.user.value.followers)) else st.selected;
          st'.(selected := sel, alert := Some(
            if req.unfollow then Alert("Unsubscribed", "Unsubscribed successfully!", "success")
            else Alert("Subscribed", "Subscribed successfully!", "success")))
  }

  /** Subscribing to an id and then unsubscribing from it gives back the
      list there was before. */
  lemma SubscribeThenUnsubscribe(subscribed: seq<string>, target: string, me: string)
    requires target !in subscribed
    ensures Toggle(Toggle(subscribed, FollowRequest(false, target, me)), FollowRequest(true, target, me)) == subscribed
  {
    var keep := (id: string) => id != target;
    FilterAppend(subscribed, [target], keep);
    FilterAll(subscribed, keep);
    assert Filter([target], keep) == [];
  }

  // ---------------------------------------------------------------------
  // Agreement with the server

  /** The client's list names exactly the users `me` follows on the server. */
  ghost predicate Mirrors(subscribed: seq<string>, rel: Follows.Relation, me: string) {
    forall x :: x in subscribed <==> Follows.CheckFollowing(rel, x, me)
  }

  /** The server's answer to a request, with the token accepted. */
  function Serve(s: FollowSchema.Server, req: FollowRequest, newId: string, now: int): (r: FollowSchema.Reply) {
    if req.unfollow then FollowSchema.Unfollow(s, Pass, req.followingId, req.followerId)
    else FollowSchema.FollowUser(s, Pass, req.followingId, req.followerId, newId, now)
  }

  /** Appending a record adds exactly its pair. */
  lemma CheckFollowingAppend(rel: Follows.Relation, f: Follows.Follow, a: string, b: string)
    ensures Follows.CheckFollowing(rel + [f], a, b) <==> Follows.CheckFollowing(rel, a, b) || Follows.IsPair(f, a, b)
  {
    var rel' := rel + [f];
    if Follows.CheckFollowing(rel, a, b) {
      var i :| 0 <= i < |rel| && Follows.IsPair(rel[i], a, b);
      assert rel'[i] == rel[i];
    }
    if Follows.IsPair(f, a, b) {
      assert rel'[|rel|] == f;
    }
  }

  /** Removing a record for one pair leaves every other pair as it was. */
  lemma CheckFollowingAfterDelete(rel: Follows.Relation, target: string, me: string, x: string)
    requires x != target
    ensures Follows.CheckFollowing(Follows.DeleteFollow(rel, target, me).relation, x, me)
      <==> Follows.CheckFollowing(rel, x, me)
  {
    var d := Follows.DeleteFollow(rel, target, me);
    Follows.CheckFollowingIffInPairs(rel, x, me);
    Follows.CheckFollowingIffInPairs(d.relation, x, me);
    if d.removed {
      assert Follows.Pairs(d.relation)[(x, me)] == Follows.Pairs(rel)[(x, me)];
    }
  }

  /** A toggle the server carries out keeps the client's list in step with
      the server's relation, whether or not a user is selected. */
  lemma ToggleKeepsMirror(st: State, s: FollowSchema.Server, followingId: string, newId: string, now: int)
    requires Decide(st, followingId).Send? && followingId != ""
    requires Mirrors(st.subscribed, s.follows, UserId(st.user).value)
    requires FollowSchema.NoDuplicatePairs(s.follows)
    ensures var req := Decide(st, followingId).request;
      var reply := Serve(s, req, newId, now);
      && reply.result.Ok? && reply.result.value.success
      && Mirrors(Settle(st, req, reply.result).subscribed, reply.server.follows, req.followerId)
  {
    var req := Decide(st, followingId).request;
    var me := req.followerId;
    var reply := Serve(s, req, newId, now);
    var after := Settle(st, req, reply.result).subscribed;
    assert after == Toggle(st.subscribed, req);
    if req.unfollow {
      forall x ensures x in after <==> Follows.CheckFollowing(reply.server.follows, x, me) {
        if x != followingId {
          CheckFollowingAfterDelete(s.follows, followingId, me, x);
        }
      }
    } else {
      var f := Follows.Follow(newId, followingId, me, now, now);
      forall x ensures x in after <==> Follows.CheckFollowing(reply.server.follows, x, me) {
        CheckFollowingAppend(s.follows, f, x, me);
      }
    }
  }

  /** `fetchUserFollows`: with a signed-in user, a successful answer
      replaces the list by the followed ids in the answer's order. */
  function LoadFollows(st: State, reply: Result<seq<Follows.Follow>>): (r: State)
    ensures !(Present(UserId(st.user)) && reply.Ok?) ==> r == st
    ensures Present(UserId(st.user)) && reply.Ok? ==>
      r == st.(subscribed := Map(reply.value, (f: Follows.Follow) => f.followingId))
  {
    if Present(UserId(st.user)) && reply.Ok? then
      st.(subscribed := Map(reply.value, (f: Follows.Follow) => f.followingId))
    else st
  }

  /** Loading the server's `getUserFollows` answer for the signed-in user
      makes the list mirror the relation. */
  lemma LoadedFollowsMirror(st: State, s: FollowSchema.Server)
    requires Present(UserId(st.user))
    ensures var me := UserId(st.user).value;
      Mirrors(LoadFollows(st, FollowSchema.GetUserFollows(s, Pass, me)).subscribed, s.follows, me)
  {
    var me := UserId(st.user).value;
    var found := FollowSchema.GetUserFollows(s, Pass, me).value;
    forall x ensures x in FollowedIds(found) <==> Follows.CheckFollowing(s.follows, x, me) {
      ListedIsFollowed(found, s.follows, me, x);
      FollowedIsListed(found, s.follows, me, x);
    }
  }

  function FollowedIds(found: seq<Follows.Follow>): seq<string> {
    Map(found, (f: Follows.Follow) => f.followingId)
  }

  lemma ListedIsFollowed(found: seq<Follows.Follow>, rel: Follows.Relation, me: string, x: string)
    requires forall f :: f in found ==> f in rel && f.followerId == me
    ensures x in FollowedIds(found) ==> Follows.CheckFollowing(rel, x, me)
  {
    var ids := FollowedIds(found);
    if x in ids {
      var k :| 0 <= k < |ids| && ids[k] == x;
      assert found[k] in found;
      var i :| 0 <= i < |rel| && rel[i] == found[k];
      assert Follows.IsPair(rel[i], x, me);
    }
  }

  lemma FollowedIsListed(found: seq<Follows.Follow>, rel: Follows.Relation, me: string, x: string)
    requires forall f :: f in rel && f.followerId == me ==> f in found
    ensures Follows.CheckFollowing(rel, x, me) ==> x in FollowedIds(found)
  {
    var ids := FollowedIds(found);
    if Follows.CheckFollowing(rel, x, me) {
      var i :| 0 <= i < |rel| && Follows.IsPair(rel[i], x, me);
      assert rel[i] in found;
      var k :| 0 <= k < |found| && found[k] == rel[i];
      assert ids[k] == x;
    }
  }

  /** With no user the list is emptied. */
  function OnUserChange(st: State): (r: State)
    ensures st.user.None? ==> r == st.(subscribed := [])
    ensures st.user.Some? ==> r == st
  {
    if st.user.None? then st.(subscribed := []) else st
  }

  // ---------------------------------------------------------------------
  // Searching and selecting

  /** Typing a search closes the selected profile. */
  function HandleSearch(st: State, text: string): (r: State)
    ensures r.searchText == text && r.selected.None?
    ensures r.subscribed == st.subscribed && r.user == st.user && r.alert == st.alert
  {
    st.(searchText := text, selected := None)
  }

  /** Selecting a user clears the search. */
  function HandleSelectUser(st: State, sel: Selected): (r: State)
    ensures r.selected == Some(sel) && r.searchText == ""
    ensures r.subscribed == st.subscribed && r.user == st.user && r.alert == st.alert
  {
    st.(selected := Some(sel), searchText := "")
  }

  /** Selecting a user and then typing leaves the search text and no
      selection, whatever was selected. */
  lemma SelectThenSearch(st: State, sel: Selected, text: string)
    ensures HandleSearch(HandleSelectUser(st, sel), text) == HandleSearch(st, text)
  {
  }

  /** `userPosts`: the selected user's posts in feed order; none without a
      selection. */
  function UserPosts(allPosts: seq<FeedPost>, selected: Option<Selected>): (r: seq<FeedPost>)
    ensures selected.None? ==> r == []
    ensures selected.Some? ==> forall p :: p in r <==> p in allPosts && p.authorId == selected.value.id
    ensures IsSubsequence(r, allPosts)
    ensures selected.Some? ==>
      forall p :: multiset(r)[p] == if p.authorId == selected.value.id then multiset(allPosts)[p] else 0
  {
    if selected.None? then []
    else
      FilterIsSubsequence(allPosts, (p: FeedPost) => p.authorId == selected.value.id);
      FilterMultiplicity(allPosts, (p: FeedPost) => p.authorId == selected.value.id);
      Filter(allPosts, (p: FeedPost) => p.authorId == selected.value.id)
  }
}

=== FILE: session.dfy ===
/** The authentication context: a token and a user, `isSignedIn` derived
    from the token, and a persisted copy of both in the device's key/value
    storage ("accessToken" and "userInfo"; JSON encoding is taken to be the
    identity). Storage I/O is a value passed in and returned. */
module Session {
  import opened Common
  import opened Client

  datatype State = State(token: Option<string>, user: Option<ClientUser>, hydrated: bool)

  /** The persisted keys. */
  datatype Stored = Stored(accessToken: Option<string>, userInfo: Option<ClientUser>)

  /** Before the stored session has been read. */
  const Initial := State(None, None, false)

  /** `Boolean(token)`. */
  predicate IsSignedIn(s: State) {
    s.token.Some? && Truthy(s.token.value)
  }

  /** The stored keys hold exactly the state's token and user. */
  predicate Mirrors(s: State, st: Stored) {
    st.accessToken == s.token && st.userInfo == s.user
  }

  /** `signIn(token, user)`: sets both fields (a missing user becomes null)
      and writes both keys, removing "userInfo" when there is no user. */
  function SignIn(s: State, st: Stored, token: string, nextUser: Option<ClientUser>): (r: (State, Stored))
    ensures r.0.token == Some(token) && r.0.user == nextUser && r.0.hydrated == s.hydrated
    ensures Mirrors(r.0, r.1)
    ensures IsSignedIn(r.0) <==> token != ""
  {
    var s' := s.(token := Some(token), user := nextUser);
    (s', Stored(Some(token), nextUser))
  }

  /** `signOut`: clears both fields and removes both keys. */
  function SignOut(s: State, st: Stored): (r: (State, Stored))
    ensures !IsSignedIn(r.0) && r.0.user.None? && r.0.hydrated == s.hydrated
    ensures Mirrors(r.0, r.1) && r.1 == Stored(None, None)
  {
    (s.(token := None, user := None), Stored(None, None))
  }

  /** `restoreSession`: a stored token (if truthy) and a stored user (if
      any) are taken over; a failed read takes over nothing; either way the
      provider is hydrated afterwards. */
  function Restore(s: State, st: Stored, readFails: bool): (r: State)
    ensures r.hydrated
    ensures readFails ==> r == s.(hydrated := true)
    ensures !readFails && st.accessToken.Some? && Truthy(st.accessToken.value) ==> r.token == st.accessToken
    ensures !readFails && !(st.accessToken.Some? && Truthy(st.accessToken.value)) ==> r.token == s.token
    ensures !readFails ==> r.user == (if st.userInfo.Some? then st.userInfo else s.user)
  {
    if readFails then s.(hydrated := true)
    else
      var token := if st.accessToken.Some? && Truthy(st.accessToken.value) then st.accessToken else s.token;
      var user := if st.userInfo.Some? then st.userInfo else s.user;
      State(token, user, true)
  }

  /** Children are drawn only once the stored session has been read. */
  predicate RendersChildren(s: State) {
    s.hydrated
  }

  /** Whatever was persisted by a sign-in or a sign-out, a fresh start that
      reads it back is in the same state, now hydrated. */
  lemma RestoreRecoversPersisted(s: State, st: Stored)
    requires Mirrors(s, st)
    requires s.token.None? || Truthy(s.token.value)
    ensures Restore(Initial, st, false) == s.(hydrated := true)
  {
  }

  lemma SignInSurvivesRestart(s: State, st: Stored, token: string, nextUser: Option<ClientUser>)
    requires token != ""
    ensures var (s', st') := SignIn(s, st, token, nextUser);
      Restore(Initial, st', false) == s'.(hydrated := true) && IsSignedIn(Restore(Initial, st', false))
  {
  }

  lemma SignOutSurvivesRestart(s: State, st: Stored)
    ensures var (s', st') := SignOut(s, st);
      Restore(Initial, st', false) == s'.(hydrated := true) && !IsSignedIn(Restore(Initial, st', false))
  {
  }
}

=== FILE: time_ago.dfy ===
/** `formatTimeAgo`, one function copied into three screens. The elapsed
    time arrives as a whole number of seconds (possibly negative for a
    timestamp in the future); the units are scanned from the largest down and
    the first one that fits at least once names the label. */
module TimeAgo {
  import opened Common

  /** The unit table, in the order the scan visits it. */
  const Units: seq<(string, int)> := [
    ("year", 31536000), ("month", 2592000), ("week", 604800),
    ("day", 86400), ("hour", 3600), ("minute", 60)]

  datatype Label = Ago(count: int, unit: string) | JustNow

  /** The scan, as `formatTimeAgo` computes it: `Math.floor(seconds / size)` for
      each unit in turn; Dafny's division by a positive divisor rounds toward
      negative infinity as `Math.floor` does. */
  method FormatTimeAgo(seconds: int) returns (r: Label)
    ensures r == Ladder(seconds)
  {
    var i := 0;
    while i < |Units|
      invariant 0 <= i <= |Units|
      invariant i > 0 ==> seconds < Units[i - 1].1
    {
      var interval := seconds / Units[i].1;
      FitsIffAtLeastOne(seconds, Units[i].1);
      if interval >= 1 {
        return Ago(interval, Units[i].0);
      }
      i := i + 1;
    }
    return JustNow;
  }

  /** A unit fits at least once exactly when the elapsed time reaches it,
      and the count brackets the elapsed time. */
  lemma FitsIffAtLeastOne(seconds: int, size: int)
    requires size > 0
    ensures seconds / size >= 1 <==> seconds >= size
    ensures (seconds / size) * size <= seconds < (seconds / size + 1) * size
  {
    var q, m := seconds / size, seconds % size;
    assert seconds == q * size + m && 0 <= m < size;
    if q >= 1 {
      assert q * size >= size;
    } else {
      assert q * size <= 0;
    }
  }

  /** The same rule written out unit by unit. */
  function Ladder(seconds: int): Label {
    if seconds >= 31536000 then Ago(seconds / 31536000, "year")
    else if seconds >= 2592000 then Ago(seconds / 2592000, "month")
    else if seconds >= 604800 then Ago(seconds / 604800, "week")
    else if seconds >= 86400 then Ago(seconds / 86400, "day")
    else if seconds >= 3600 then Ago(seconds / 3600, "hour")
    else if seconds >= 60 then Ago(seconds / 60, "minute")
    else JustNow
  }

  /** "just now" exactly under a minute, negative values included; otherwise
      the count is at least one, the elapsed time lies within that many units
      and one more, and no larger unit fits. */
  lemma LadderMeaning(seconds: int)
    ensures Ladder(seconds).JustNow? <==> seconds < 60
    ensures Ladder(seconds).Ago? ==>
      exists i :: 0 <= i < |Units| && Units[i].0 == Ladder(seconds).unit
        && Ladder(seconds).count >= 1
        && Ladder(seconds).count * Units[i].1 <= seconds < (Ladder(seconds).count + 1) * Units[i].1
        && forall j :: 0 <= j < i ==> seconds < Units[j].1
  {
    var l := Ladder(seconds);
    var i := if seconds >= 31536000 then 0 else if seconds >= 2592000 then 1
      else if seconds >= 604800 then 2 else if seconds >= 86400 then 3
      else if seconds >= 3600 then 4 else 5;
    FitsIffAtLeastOne(seconds, Units[i].1);
    if l.Ago? {
      assert Units[i].0 == l.unit && l.count == seconds / Units[i].1;
    }
  }

  // ---------------------------------------------------------------------
  // Rendering

  function DigitChar(d: int): char
    requires 0 <= d < 10
  {
    ('0' as int + d) as char
  }

  predicate IsDigit(c: char) {
    '0' <= c <= '9'
  }

  /** The decimal numeral of `n`, as a template literal prints it. */
  function Numeral(n: nat): (r: string)
    ensures |r| >= 1 && forall k :: 0 <= k < |r| ==> IsDigit(r[k])
  {
    if n < 10 then [DigitChar(n)] else Numeral(n / 10) + [DigitChar(n % 10)]
  }

  /** The value of a string of decimal digits. */
  function ValueOf(s: string): nat
    requires forall k :: 0 <= k < |s| ==> IsDigit(s[k])
  {
    if |s| == 0 then 0
    else
      assert IsDigit(s[|s| - 1]);
      ValueOf(s[..|s| - 1]) * 10 + (s[|s| - 1] as int - '0' as int)
  }

  lemma {:induction false} ValueOfNumeral(n: nat)
    ensures ValueOf(Numeral(n)) == n
  {
    if n >= 10 {
      ValueOfNumeral(n / 10);
      var r := Numeral(n);
      assert r[..|r| - 1] == Numeral(n / 10);
    }
  }

  /** `${n} ${unit}${n > 1 ? "s" : ""} ago`, or "just now". */
  function Render(l: Label): string {
    match l
    case JustNow => "just now"
    case Ago(n, unit) =>
      (if n >= 0 then Numeral(n) else "-" + Numeral(-n)) + " " + unit + (if n > 1 then "s" else "") + " ago"
  }

  /** Reading a rendered label back: three words, a numeral, a unit that
      carries a plural "s" exactly when the count exceeds one, and "ago". */
  function Parse(s: string): Option<Label> {
    var parts := Split(s, ' ');
    if s == "just now" then Some(JustNow)
    else if |parts| == 3 && parts[2] == "ago" && |parts[0]| > 0
            && (forall k :: 0 <= k < |parts[0]| ==> IsDigit(parts[0][k])) then
      var n := ValueOf(parts[0]);
      var word := parts[1];
      if n > 1 then
        if |word| > 0 && word[|word| - 1] == 's' then Some(Ago(n, word[..|word| - 1])) else None
      else Some(Ago(n, word))
    else None
  }

  /** What the scan can produce: "just now", or a positive count of a unit
      from the table. */
  predicate Producible(l: Label) {
    l.JustNow? || (l.count >= 1 && exists i :: 0 <= i < |Units| && Units[i].0 == l.unit)
  }

  lemma LadderProducible(seconds: int)
    ensures Producible(Ladder(seconds))
  {
    LadderMeaning(seconds);
  }

  /** Every label the scan produces renders to a string it can be read back
      from, so two different labels never render alike. */
  lemma RenderParse(l: Label)
    requires Producible(l)
    ensures Parse(Render(l)) == Some(l)
  {
    if l.Ago? {
      var num := Numeral(l.count);
      var word := l.unit + (if l.count > 1 then "s" else "");
      RenderAsWords(l);
      ValueOfNumeral(l.count);
      var r := Render(l);
      assert r != "just now" by {
        assert r[0] == num[0] && IsDigit(num[0]);
      }
      var parts := Split(r, ' ');
      assert parts[0] == num && parts[1] == word && parts[2] == "ago" && |parts| == 3;
      assert forall k :: 0 <= k < |parts[0]| ==> IsDigit(parts[0][k]);
      assert ValueOf(parts[0]) == l.count;
      if l.count > 1 {
        assert word[..|word| - 1] == l.unit && word[|word| - 1] == 's';
      } else {
        assert word == l.unit;
      }
    }
  }

  /** A produced count-and-unit label is three space-free words. */
  lemma RenderAsWords(l: Label)
    requires Producible(l) && l.Ago?
    ensures var parts := [Numeral(l.count), l.unit + (if l.count > 1 then "s" else ""), "ago"];
      Split(Render(l), ' ') == parts
  {
    var num := Numeral(l.count);
    var word := l.unit + (if l.count > 1 then "s" else "");
    var parts := [num, word, "ago"];
    assert ' ' !in l.unit by {
      var i :| 0 <= i < |Units| && Units[i].0 == l.unit;
      assert i == 0 || i == 1 || i == 2 || i == 3 || i == 4 || i == 5;
    }
    assert ' ' !in num by {
      forall k | 0 <= k < |num| ensures num[k] != ' ' {
        assert IsDigit(num[k]);
      }
    }
    assert Join(parts[2..], ' ') == "ago";
    assert Join(parts[1..], ' ') == word + " ago";
    assert Render(l) == Join(parts, ' ');
    SplitJoin(parts, ' ');
  }

  /** The three screens' copies agree: each is the same scan, so rendering
      the result of any of them renders the same string. */
  method FormatTimeAgoText(seconds: int) returns (text: string)
    ensures Parse(text) == Some(Ladder(seconds))
    ensures text == "just now" <==> seconds < 60
  {
    var l := FormatTimeAgo(seconds);
    LadderProducible(seconds);
    RenderParse(l);
    LadderMeaning(seconds);
    text := Render(l);
    if l.Ago? {
      assert Parse(text) != Some(JustNow);
    }
  }
}

=== FILE: user_schema.dfy ===
/** The user resolvers. The reading resolvers call `auth()` first;
    `register` and `login` take no outcome of `auth()` at all, since they
    are reachable without a token. */
module UserSchema {
  import opened Common
  import Follows
  import Users

  datatype Server = Server(users: Users.Users, follows: Follows.Relation)

  /** A user record together with its subscriber count. */
  datatype Enriched = Enriched(user: Users.User, followers: nat)

  /** The claims a login token is signed over. */
  datatype Claims = Claims(userId: string, username: string)

  datatype Session = Session(token: string, user: Users.User)

  /** `users`: every stored record, in collection order. */
  function UsersQuery(s: Server, auth: Outcome): (r: Result<Users.Users>)
    ensures auth.Fail? ==> r == Err(auth.msg)
    ensures auth.Pass? ==> r.Ok? && forall u :: u in r.value <==> u in s.users
    ensures auth.Pass? ==> r.Ok? && r.value == s.users
  {
    match auth
    case Fail(m) => Err(m)
    case Pass => Ok(s.users)
  }

  /** `user(id)`: `null` when no user has the id, otherwise the record with
      its subscriber count. */
  function UserQuery(s: Server, auth: Outcome, id: string): (r: Result<Option<Enriched>>)
    ensures auth.Fail? ==> r == Err(auth.msg)
    ensures auth.Pass? ==> r.Ok? && (r.value.None? <==> forall u :: u in s.users ==> u.id != id)
    ensures r.Ok? && r.value.Some? ==>
      (r.value.value.user in s.users && r.value.value.user.id == id
      && r.value.value.followers == Users.SubscriberCount(s.follows, id))
  {
    match auth
    case Fail(m) => Err(m)
    case Pass =>
      match Users.FindById(s.users, id)
      case None => Ok(None)
      case Some(u) => Ok(Some(Enriched(u, Users.SubscriberCount(s.follows, id))))
  }

  /** `searchUsers`: each matched user, in the order the search produced
      them, with its subscriber count. The search itself is a parameter. */
  function SearchUsers(s: Server, auth: Outcome, matched: Users.Users): (r: Result<seq<Enriched>>)
    ensures auth.Fail? ==> r == Err(auth.msg)
    ensures auth.Pass? ==> r.Ok? && |r.value| == |matched|
    ensures r.Ok? ==> forall i :: 0 <= i < |r.value| ==>
      r.value[i].user == matched[i] && r.value[i].followers == Users.SubscriberCount(s.follows, matched[i].id)
  {
    match auth
    case Fail(m) => Err(m)
    case Pass => Ok(Map(matched, (u: Users.User) => Enriched(u, Users.SubscriberCount(s.follows, u.id))))
  }

  /** `register`: `User.create` on the arguments as given. */
  function Register(s: Server, input: Users.NewUser, hash: string -> string, newId: string): (r: (Result<Users.User>, Server))
    ensures r.0.Ok? <==> Users.Create(s.users, input, hash, newId).Ok?
    ensures r.0.Err? ==> r.0.msg == Users.Create(s.users, input, hash, newId).msg && r.1 == s
    ensures r.0.Ok? ==> (r.0.value.password == hash(input.password) && r.0.value.id == newId
      && r.1 == s.(users := s.users + [r.0.value]))
  {
    match Users.Create(s.users, input, hash, newId)
    case Err(m) => (Err(m), s)
    case Ok(reg) => (Ok(reg.user), s.(users := reg.users))
  }

  /** `login`: the token is signed over the user's id and username and is
      answered with the user. */
  function Login(s: Server, username: string, password: string,
                 matches: (string, string) -> bool, sign: Claims -> string): (r: Result<Session>)
    ensures r.Err? ==> r.msg == "Invalid username or password"
    ensures r.Ok? <==> Users.Login(s.users, username, password, matches).Ok?
    ensures r.Ok? ==> (r.value.user in s.users && r.value.user.username == username
      && r.value.token == sign(Claims(r.value.user.id, username)))
  {
    match Users.Login(s.users, username, password, matches)
    case Err(m) => Err(m)
    case Ok(u) => Ok(Session(sign(Claims(u.id, u.username)), u))
  }

  /** Registering and then logging in with the same password signs a token
      for the new record, provided the comparison accepts a password against
      its own hash. */
  lemma RegisterThenLogin(s: Server, input: Users.NewUser, hash: string -> string, newId: string,
                          matches: (string, string) -> bool, sign: Claims -> string)
    requires Register(s, input, hash, newId).0.Ok?
    requires matches(input.password, hash(input.password))
    ensures var (u, s') := Register(s, input, hash, newId);
      Login(s', input.username, input.password, matches, sign)
        == Ok(Session(sign(Claims(newId, input.username)), u.value))
  {
    var (u, s') := Register(s, input, hash, newId);
    assert Users.FindByUsername(s'.users, input.username) == Some(u.value) by {
      assert s'.users[|s.users|] == u.value;
      assert forall x :: x in s.users ==> x.username != input.username;
      assert forall x :: x in s'.users ==> x in s.users || x == u.value;
    }
  }
}

=== FILE: users.dfy ===
/** The `users` collection: registration with its ordered validation,
    login, and the follower figures derived from the `follows` collection.
    Password hashing and comparison are uninterpreted function parameters. */
module Users {
  import opened Common
  import opened Follows

  /** A stored user; `password` holds the hash, never the plaintext. */
  datatype User = User(id: string, name: Option<string>, username: string, email: string, password: string)

  type Users = seq<User>

  function FindById(users: Users, id: string): (r: Option<User>)
    ensures r.Some? ==> r.value in users && r.value.id == id
    ensures r.None? <==> forall u :: u in users ==> u.id != id
  {
    First(users, (u: User) => u.id == id)
  }

  function FindByUsername(users: Users, username: string): (r: Option<User>)
    ensures r.Some? ==> r.value in users && r.value.username == username
    ensures r.None? <==> forall u :: u in users ==> u.username != username
  {
    First(users, (u: User) => u.username == username)
  }

  function FindByEmail(users: Users, email: string): (r: Option<User>)
    ensures r.Some? ==> r.value in users && r.value.email == email
    ensures r.None? <==> forall u :: u in users ==> u.email != email
  {
    First(users, (u: User) => u.email == email)
  }

  predicate UniqueIds(users: Users) {
    forall i, j :: 0 <= i < j < |users| ==> users[i].id != users[j].id
  }

  predicate UniqueUsernames(users: Users) {
    forall i, j :: 0 <= i < j < |users| ==> users[i].username != users[j].username
  }

  predicate UniqueEmails(users: Users) {
    forall i, j :: 0 <= i < j < |users| ==> users[i].email != users[j].email
  }

  // ---------------------------------------------------------------------
  // Email format

  /** A character matched by the class `[^\s@]`. */
  predicate Plain(c: char) {
    !IsSpace(c) && c != '@'
  }

  predicate AllPlain(s: string) {
    forall i :: 0 <= i < |s| ==> Plain(s[i])
  }

  /** The strings matched by `^[^\s@]+@[^\s@]+\.[^\s@]+$`: a non-empty
      local part, `@`, a non-empty run, a dot, a non-empty run, with no
      white space and no other `@` anywhere. The dot may be any dot after
      the first domain character, as regex backtracking allows. */
  ghost predicate MatchesEmailPattern(s: string) {
    exists at: nat, dot: nat ::
      0 < at && at + 1 < dot < |s| - 1 && s[at] == '@' && s[dot] == '.'
      && AllPlain(s[..at]) && AllPlain(s[at + 1..dot]) && AllPlain(s[dot + 1..])
  }

  /** The email check as a scan: find the `@`, then look for an inner dot. */
  function ValidEmail(s: string): bool {
    match IndexOf(s, '@')
    case None => false
    case Some(at) =>
      at > 0 && AllPlain(s[..at]) && AllPlain(s[at + 1..])
      && exists dot | at + 1 < dot < |s| - 1 :: s[dot] == '.'
  }

  /** The scan accepts exactly the strings the pattern matches. */
  lemma ValidEmailMatchesPattern(s: string)
    ensures ValidEmail(s) <==> MatchesEmailPattern(s)
  {
    if ValidEmail(s) {
      ScanImpliesPattern(s);
    }
    if MatchesEmailPattern(s) {
      var at: nat, dot: nat :| 0 < at && at + 1 < dot < |s| - 1 && s[at] == '@' && s[dot] == '.'
        && AllPlain(s[..at]) && AllPlain(s[at + 1..dot]) && AllPlain(s[dot + 1..]);
      PatternImpliesScan(s, at, dot);
    }
  }

  lemma ScanImpliesPattern(s: string)
    requires ValidEmail(s)
    ensures MatchesEmailPattern(s)
  {
    var at := IndexOf(s, '@').value;
    var dot :| at + 1 < dot < |s| - 1 && s[dot] == '.';
    var rest := s[at + 1..];
    assert s[at + 1..dot] == rest[..dot - at - 1];
    assert s[dot + 1..] == rest[dot - at..];
    assert AllPlain(s[at + 1..dot]);
    assert AllPlain(s[dot + 1..]);
  }

  lemma PatternImpliesScan(s: string, at: nat, dot: nat)
    requires 0 < at && at + 1 < dot < |s| - 1 && s[at] == '@' && s[dot] == '.'
    requires AllPlain(s[..at]) && AllPlain(s[at + 1..dot]) && AllPlain(s[dot + 1..])
    ensures ValidEmail(s)
  {
    var f := IndexOf(s, '@');
    assert f == Some(at) by {
      assert f.Some?;
      assert s[..at + 1][at] == '@';
    }
    assert AllPlain(s[at + 1..]) by {
      forall i | at + 1 <= i < |s| ensures Plain(s[i]) {
        assert i < dot ==> s[i] == s[at + 1..dot][i - at - 1];
        assert i > dot ==> s[i] == s[dot + 1..][i - dot - 1];
      }
    }
  }

  // ---------------------------------------------------------------------
  // Registration and login

  datatype NewUser = NewUser(name: Option<string>, username: string, email: string, password: string)

  /** The checks made before the database is consulted. Lengths are
      `.length`, counted in UTF-16 code units. */
  predicate WellFormed(input: NewUser) {
    input.username != "" && input.email != "" && input.password != ""
    && JsLength(input.password) >= 5 && ValidEmail(input.email) && JsLength(input.username) >= 3
  }

  datatype Registered = Registered(user: User, users: Users)

  /** `User.create`: six shape checks in a fixed order, then uniqueness of
      the username, then of the email; on success the hash of the password
      is stored and the record carries the id the database assigned. */
  function Create(users: Users, input: NewUser, hash: string -> string, newId: string): (r: Result<Registered>)
    ensures input.username == "" ==> r == Err("Username is required")
    ensures input.username != "" && input.email == "" ==> r == Err("Email is required")
    ensures input.username != "" && input.email != "" && input.password == ""
      ==> r == Err("Password is required")
    ensures input.username != "" && input.email != "" && input.password != "" && JsLength(input.password) < 5
      ==> r == Err("Password must be at least 5 characters")
    ensures input.username != "" && input.email != "" && JsLength(input.password) >= 5 && !ValidEmail(input.email)
      ==> r == Err("Invalid email format")
    ensures input.username != "" && JsLength(input.password) >= 5 && ValidEmail(input.email) && JsLength(input.username) < 3
      ==> r == Err("Username must be at least 3 characters")
    ensures WellFormed(input) && FindByUsername(users, input.username).Some?
      ==> r == Err("Username already exists")
    ensures WellFormed(input) && FindByUsername(users, input.username).None? && FindByEmail(users, input.email).Some?
      ==> r == Err("Email already exists")
    ensures r.Ok? <==> (WellFormed(input)
      && forall u :: u in users ==> u.username != input.username && u.email != input.email)
    ensures r.Ok? ==> r.value.user == User(newId, input.name, input.username, input.email, hash(input.password))
    ensures r.Ok? ==> r.value.users == users + [r.value.user]
    ensures r.Ok? && UniqueUsernames(users) ==> UniqueUsernames(r.value.users)
    ensures r.Ok? && UniqueEmails(users) ==> UniqueEmails(r.value.users)
  {
    if input.username == "" then Err("Username is required")
    else if input.email == "" then Err("Email is required")
    else if input.password == "" then Err("Password is required")
    else if JsLength(input.password) < 5 then Err("Password must be at least 5 characters")
    else if !ValidEmail(input.email) then Err("Invalid email format")
    else if JsLength(input.username) < 3 then Err("Username must be at least 3 characters")
    else if FindByUsername(users, input.username).Some? then Err("Username already exists")
    else if FindByEmail(users, input.email).Some? then Err("Email already exists")
    else
      var u := User(newId, input.name, input.username, input.email, hash(input.password));
      var users' := users + [u];
      assert forall i :: 0 <= i < |users| ==> users'[i] == users[i] && users[i] in users;
      Ok(Registered(u, users'))
  }

  /** `User.login`: an unknown username and a wrong password are reported
      with one and the same message. `matches(plain, stored)` stands for the
      hash comparison. */
  function Login(users: Users, username: string, password: string, matches: (string, string) -> bool): (r: Result<User>)
    ensures r.Err? ==> r.msg == "Invalid username or password"
    ensures r.Ok? <==> FindByUsername(users, username).Some?
                       && matches(password, FindByUsername(users, username).value.password)
    ensures r.Ok? ==> r.value in users && r.value.username == username
  {
    match FindByUsername(users, username)
    case None => Err("Invalid username or password")
    case Some(u) =>
      if !matches(password, u.password) then Err("Invalid username or password") else Ok(u)
  }

  // ---------------------------------------------------------------------
  // Follower figures

  predicate IsFollowedBy(u: string, f: Follow) {
    f.followingId == u
  }

  /** `User.getSubscriberCount`: how many follow records name `u` as the
      followed user. */
  function SubscriberCount(rel: Relation, u: string): nat {
    Count(rel, f => IsFollowedBy(u, f))
  }

  /** Inserting a record for `followingId` raises its count by one and no
      other user's. */
  lemma CountAfterCreate(rel: Relation, f: Follow, u: string)
    ensures SubscriberCount(rel + [f], u) == SubscriberCount(rel, u) + (if f.followingId == u then 1 else 0)
  {
    FilterAppend(rel, [f], f => IsFollowedBy(u, f));
    assert [f][1..] == [];
  }

  /** Removing one record lowers its followed user's count by one. */
  lemma CountAfterRemoval(rel: Relation, i: nat, u: string)
    requires i < |rel|
    ensures SubscriberCount(rel[..i] + rel[i + 1..], u) + (if rel[i].followingId == u then 1 else 0)
            == SubscriberCount(rel, u)
  {
    var keep := f => IsFollowedBy(u, f);
    assert rel == rel[..i] + ([rel[i]] + rel[i + 1..]);
    FilterAppend(rel[..i], [rel[i]] + rel[i + 1..], keep);
    FilterAppend([rel[i]], rel[i + 1..], keep);
    FilterAppend(rel[..i], rel[i + 1..], keep);
    assert [rel[i]][1..] == [];
  }

  datatype Profile = Profile(username: string, name: Option<string>)

  function ProfileOf(u: User): Profile {
    Profile(u.username, u.name)
  }

  /** The users a `$lookup` on `_id` finds, projected; an `$unwind` then
      drops the record when there are none. */
  function ProfilesWithId(users: Users, id: string): (r: seq<Profile>)
    ensures forall p :: p in r ==> exists u :: u in users && u.id == id && ProfileOf(u) == p
  {
    var found := Filter(users, (u: User) => u.id == id);
    assert forall i :: 0 <= i < |found| ==> found[i] in users && found[i].id == id;
    Map(found, ProfileOf)
  }

  /** The records `select` picks, each joined to the user `other` names. */
  function Joined(rel: Relation, users: Users, select: Follow -> bool, other: Follow -> string): seq<Profile> {
    if |rel| == 0 then []
    else (if select(rel[0]) then ProfilesWithId(users, other(rel[0])) else [])
         + Joined(rel[1..], users, select, other)
  }

  /** `User.getFollowers`: the profiles of the users following `u`. */
  function GetFollowers(rel: Relation, users: Users, u: string): seq<Profile> {
    Joined(rel, users, f => IsFollowedBy(u, f), (f: Follow) => f.followerId)
  }

  /** `User.getFollowing`: the profiles of the users `u` follows. */
  function GetFollowing(rel: Relation, users: Users, u: string): seq<Profile> {
    Joined(rel, users, (f: Follow) => f.followerId == u, (f: Follow) => f.followingId)
  }

  lemma {:induction false} AtMostOneWithId(users: Users, id: string)
    requires UniqueIds(users)
    ensures |ProfilesWithId(users, id)| <= 1
    ensures |ProfilesWithId(users, id)| == 1 <==> exists u :: u in users && u.id == id
  {
    if |users| > 0 {
      var tail := users[1..];
      assert UniqueIds(tail) by {
        forall i, j | 0 <= i < j < |tail| ensures tail[i].id != tail[j].id {
          assert tail[i] == users[i + 1] && tail[j] == users[j + 1];
        }
      }
      AtMostOneWithId(tail, id);
      var keep := (u: User) => u.id == id;
      if users[0].id == id {
        assert forall u :: u in tail ==> u.id != id by {
          forall u | u in tail ensures u.id != id {
            var k :| 0 <= k < |tail| && tail[k] == u;
            assert users[k + 1] == u;
          }
        }
        assert |Filter(tail, keep)| == 0;
      }
      assert forall u :: u in users <==> u == users[0] || u in tail;
    }
  }

  /** Joining drops records whose referenced user does not exist, so with
      unique user ids a join lists at most one profile per selected record,
      and exactly one when every selected record's user exists. */
  lemma {:induction false} JoinedBounded(rel: Relation, users: Users, select: Follow -> bool, other: Follow -> string)
    requires UniqueIds(users)
    ensures |Joined(rel, users, select, other)| <= Count(rel, select)
    ensures (forall f :: f in rel && select(f) ==> exists x :: x in users && x.id == other(f))
            ==> |Joined(rel, users, select, other)| == Count(rel, select)
  {
    if |rel| > 0 {
      JoinedBounded(rel[1..], users, select, other);
      AtMostOneWithId(users, other(rel[0]));
      assert forall f :: f in rel[1..] ==> f in rel;
    }
  }

  /** No more followers are listed than the subscriber count, and exactly
      as many when every follower exists. */
  lemma FollowersBoundedByCount(rel: Relation, users: Users, u: string)
    requires UniqueIds(users)
    ensures |GetFollowers(rel, users, u)| <= SubscriberCount(rel, u)
    ensures (forall f :: f in rel && f.followingId == u ==> exists x :: x in users && x.id == f.followerId)
            ==> |GetFollowers(rel, users, u)| == SubscriberCount(rel, u)
  {
    JoinedBounded(rel, users, f => IsFollowedBy(u, f), (f: Follow) => f.followerId);
  }

  /** No more followed users are listed than `u` has follow records, and
      exactly as many when every followed user exists. */
  lemma FollowingBoundedByCount(rel: Relation, users: Users, u: string)
    requires UniqueIds(users)
    ensures |GetFollowing(rel, users, u)| <= Count(rel, (f: Follow) => f.followerId == u)
    ensures (forall f :: f in rel && f.followerId == u ==> exists x :: x in users && x.id == f.followingId)
            ==> |GetFollowing(rel, users, u)| == Count(rel, (f: Follow) => f.followerId == u)
  {
    JoinedBounded(rel, users, (f: Follow) => f.followerId == u, (f: Follow) => f.followingId);
  }
}
